=== FILE: README.md ===
# Light messenger: pulse schedule and receivers

The app sends text between two phones with a flashlight and a camera. The
sender is handed one '0'/'1' digit string per character. It turns the message
into a timed train of light and dark pulses:

- a start marker;
- one pulse per digit, long for a '1' and short otherwise;
- an end marker.

Light and dark strictly alternate, and the first pulse is light. The receiver
samples the camera's brightness. It measures how long each brightness lasts,
classifies each run as a marker, a 0 or a 1, groups bits by seven and turns
each group into a character.

The repository has two receivers:

- the `Decoder` class: `reset`, `addFrame`, `checkFramesForBits`, `addBit`,
  `endMessage`;
- an older one written inline in `FlashControl.captureOutput`, with its nested
  `endWord`, `resetMessageReceiving` and `endCapture`.

This project models the sender and both receivers as pure functions over
immutable state records. Time is counted in integer ticks. A sample is a
`(time, bright)` pair, and the sender's torch is an emitted list of pulses.
Status messages and notifications become an appended event log.

The modules follow the program:

- `Signal`: the shared vocabulary of timings, pulses and samples, and two
  ways of sampling a pulse train. `EdgeSamples` sees every pulse at the
  instant it begins and at the instant it ends. `Samples` is a camera
  watching the torch. The torch is off after every pulse
  (`FlashControl.swift:135-137`), so after a dark last pulse the camera sees
  no change and that pulse's run is never ended.
- `Binary`: digit strings and the 7-bit values they carry. This covers
  `Int32(fullWord)` and the intended `binary_decimal`.
- `Transmitter`: `sendAMessage`, `initializeSendingMessage`, `sendOneBit` and
  the parity flag, plus `SendAMessageClosed`, the corrected sender described
  under "Findings".
- `Decoder`: the `Decoder` class. Each `addFrame` is one block of its serial
  queue, run to completion. The `reset()` that `endMessage` queues on that
  same queue is applied at the end of the step that queued it.
- `InlineReceiver`: the inline receiver. The `endCapture` it schedules on the
  main queue is reported as an event and modelled as a separate operation.
- `RoundTrip`: the sender's schedule, sampled and fed to the `Decoder`.
  Thresholds must keep the three pulse lengths apart.
  - Seen at its edges, every message of seven-digit words comes back whole.
  - Seen by the camera, the same holds when the number of words is odd.
  - With an even number of words the end marker is dark. Then every character
    is reported, but no `CAPTURE_RESULT` is posted.
  - A dark lead-in is read as a marker or as a stray bit (`LongLeadIn`,
    `ShortLeadIn`).
- `InlineSampling`: the same schedule fed to the inline receiver. Sampled from
  the start marker's first instant, it never starts a message. A start needs
  a run strictly longer than the marker time, ended by a bright sample. No
  pulse of the schedule is longer than the marker time. A dark lead-in that
  ends later than the marker time after `resetMessageReceiving` does start a
  message, two digits early (`LeadInStartsInline`).

The round trips assume that sampling begins at the start marker's first
instant. Nothing is seen before the transmission. The lead-in lemmas state
what happens otherwise.

Behaviour of the code that the model keeps:

- A `Decoder` marker is a run strictly longer than the marker time less the
  margin (`Decoder.swift:91`).
- Any marker flips `inMessage`, whether the run was light or dark
  (`Decoder.swift:91-100`). A starting marker clears neither the bit group
  nor the message. The comment at `FlashControl.swift:266` says a start is
  always a flash. Neither receiver works that way. The inline receiver starts
  only when a long run is ended by a bright sample, so the run that starts it
  is dark (`DarkNeverStarts`, `StartRecordsMarkerRun`). The `Decoder` starts
  after a long run of either level.
- While no message is under way, non-marker runs still append bits and
  complete characters (`Decoder.swift:102-131`).
- The first run after `reset()` is not always ignored. A first bright sample
  only starts the clock. A first dark run is measured from its own first
  sample and classified (`DarkFirstRunMeasured`).
- Light sent before the start marker is not simply ignored, although the
  comment at `FlashControl.swift:40-41` says it is. Both receivers read a dark
  lead-in as described above.
- `Decoder` thresholds and `binary_decimal` are not defined in the files
  modelled here. They are fields of `Decoder.Config`. `MsbFirst` states the
  intended conversion.

## Model

| member | source | states |
|---|---|---|
| Transmitter.SendOneBit | flash1/FlashControl.swift:121-142 | without a camera nothing changes; with one, exactly one pulse of the given length is held, light when the flag is false, and the flag flips |
| Signal.SamplesEndDark | flash1/FlashControl.swift:121-141 | the torch is off once a train is over: the last sample a camera takes is dark, at the train's end, and after a light last pulse the sample before it is bright |
| Transmitter.SendDigitsEmits | flash1/FlashControl.swift:97-103 | the inner loop holds one pulse per digit of a word, levels alternating from the flag, and flips the flag once per digit |
| Transmitter.SendWordsEmits | flash1/FlashControl.swift:95-104 | the outer loop holds the alternating pulses of every digit of every word, in order |
| Transmitter.SendAMessage | flash1/FlashControl.swift:90-111 | with a camera, `sendAMessage` holds exactly the message's schedule (start marker, digits, end marker, light first), whatever the flag was before, and leaves the flag set when the schedule has an odd number of pulses; without a camera it holds nothing and only clears the flag |
| Transmitter.InitializeSendingMessage | flash1/FlashControl.swift:116-118 | the flag is cleared, so the next pulse is light, and nothing is held |
| Transmitter.ScheduleShape | flash1/FlashControl.swift:90-106 | the schedule is the start marker, one pulse per digit in order, and the end marker: digit count plus two pulses |
| Transmitter.PulseDurations | flash1/FlashControl.swift:94-106 | every pulse lasts the zero, one or marker time; a digit's pulse lasts the one time exactly when the digit is '1' |
| Transmitter.ScheduleAlternates | flash1/FlashControl.swift:114-141 | the first pulse is light, each pulse has the other level from the one before, and the end marker is dark exactly when the digit count is even |
| Transmitter.LevelAfterParity | flash1/FlashControl.swift:141 | the level after a train of alternating pulses is the starting level flipped once per pulse |
| Transmitter.AZSchedule | flash1/FlashControl.swift:20-37 | the "aZ" message is sent as exactly the sixteen pulses the header lists: light start marker, fourteen digit pulses, dark end marker |
| Transmitter.ClosedSchedule | flash1/FlashControl.swift:40-41 | the corrected pulses end light: the schedule unchanged, then at most one more pulse |
| Transmitter.SendAMessageClosed | flash1/FlashControl.swift:90-111 | with a camera the corrected sender holds the closed schedule after what it held before; without one it holds nothing |
| Binary.SevenDigitWordFitsInt32 | flash1/Decoder.swift:108-116 | a seven-digit '0'/'1' word read as a decimal number is at most 1111111, so `Int32(fullWord)` never fails |
| Binary.BinaryDecimalOfWord | flash1/Decoder.swift:109-116 | the intended `binary_decimal` of the word built from a group of bits is the group's value read most significant bit first |
| Binary.ToBinaryValue | flash1/FlashControl.swift:15-17 | the width-digit binary spelling of a code reads back as the code modulo 2^width |
| Decoder.CharOf | flash1/Decoder.swift:119 | a value from 0 to 255 is formatted by `%c` as the character with that code |
| Decoder.AddBit | flash1/Decoder.swift:89-132 | a bit group of at most six bits before a run still has at most six after it |
| Decoder.MarkerBit | flash1/Decoder.swift:91-100 | a marker flips `inMessage`, keeps the bits and the message, and either reports the message and queues a reset (inside a message) or reports a beginning |
| Decoder.PartialStep | flash1/Decoder.swift:102-108 | a non-marker run appends exactly one bit, 0 iff shorter than the zero time plus the margin, whether or not a message is under way |
| Decoder.FullGroup | flash1/Decoder.swift:108-131 | a full group worth at most 127 adds that character, empties the group and reports the message; a larger value drops only the oldest bit, keeping the other six in order and the message unchanged |
| Decoder.FullGroupAlwaysDecodes | flash1/Decoder.swift:115-125 | with the intended `binary_decimal` a full group is never over 127, so it always becomes a character and the resync branch is unreachable |
| Decoder.CheckFramesForBits | flash1/Decoder.swift:60-85 | the walk empties the queue and keeps the bit group below seven |
| Decoder.AddFrame | flash1/Decoder.swift:42-49 | a sample of the brightness being measured only joins the queue and reports nothing; any other sample empties the queue; the bit group stays below seven |
| Decoder.AddFrameKeeps | flash1/Decoder.swift:42-49 | one `addFrame` keeps every queued sample at the brightness being measured, empties the queue on a change, and keeps the group below seven |
| Decoder.FeedKeeps | flash1/Decoder.swift:42-49 | over any sequence of samples the queue stays settled and the group stays below seven bits |
| Decoder.FeedSame | flash1/Decoder.swift:42-49 | samples of the brightness being measured only join the queue, in order, and nothing else changes |
| Decoder.FeedQuietLast | flash1/Decoder.swift:42-49 | a last sample of the brightness being measured changes neither the reports nor the message state |
| Decoder.ScanRun | flash1/Decoder.swift:64-84 | walking one run and the sample that ends it adds the gaps between the run's samples to the measured time and hands the total to `addBit` |
| Decoder.ScanSkip | flash1/Decoder.swift:73-74 | same-brightness samples only move the clock to the last of them and add their run's length |
| Decoder.RunDuration | flash1/Decoder.swift:60-85 | a change of brightness measures the run from its first sample to its last same-brightness sample, excluding the gap to the new sample, hands it to `addBit` if positive, and switches brightness unless a reset was queued |
| Decoder.ShortRunIgnored | flash1/Decoder.swift:67-80 | a run measured as zero, such as a single sample or the samples after a reset, never reaches `addBit` and leaves the message state unchanged |
| Decoder.FirstSampleAfterReset | flash1/Decoder.swift:64-82 | after `reset()` a first bright sample only starts the clock, and a first dark sample is queued with the clock still at zero |
| Decoder.DarkFirstRunMeasured | flash1/Decoder.swift:64-82 | after `reset()` a run of dark samples ended by a bright one is measured from its first sample to its last and handed to `addBit`, not ignored |
| Decoder.MarkerRun | flash1/Decoder.swift:91-150 | a marker run inside a message reports the message and leaves every field at its reset value; outside one it reports a beginning and keeps the earlier bits and message |
| Decoder.Reset | flash1/Decoder.swift:28-38 | `reset()` leaves the clock at zero, the brightness dark, no queued samples, no bits, an empty message and no message under way, a state that satisfies the decoder's invariants |
| Decoder.FeedPartialGroup | flash1/Decoder.swift:102-108 | non-marker runs that do not fill a group only append their bits, in order |
| Decoder.WordOfSevenRuns | flash1/Decoder.swift:102-125 | seven non-marker runs from an empty group add one character, their bits' value, and report the grown message |
| InlineReceiver.ResetMessageReceiving | flash1/FlashControl.swift:209-216 | receiving starts outside a message with no words and no waiting bits, the brightness dark, no run time and the clock at zero, so the first gap is measured from time zero; the state satisfies the receiver's invariant |
| InlineReceiver.FullWord | flash1/FlashControl.swift:243-250 | the word has one digit per buffered value, '1' exactly for a 1 |
| InlineReceiver.EndWord | flash1/FlashControl.swift:242-254 | `endWord` empties the buffer, adds exactly one word to `readBuffer`, and changes nothing else |
| InlineReceiver.EndWordKeepsRecord | flash1/FlashControl.swift:242-254 | the flushed word spells the buffered bits, is logged, and the record of all digits is unchanged |
| InlineReceiver.CaptureOutput | flash1/FlashControl.swift:229-293 | an unchanged brightness only adds the gap to the run time; a change restarts it and records the new brightness; a start needs a run over the marker time ended by a bright sample; nothing is recorded before a start; an end is signalled only for a long run inside a message |
| InlineReceiver.CaptureOutputKeepsValid | flash1/FlashControl.swift:256-288 | between samples at most six bits wait, each 0 or 1, every flushed word is a '0'/'1' string of at most seven digits, and nothing is recorded before a start |
| InlineReceiver.CaptureOutputRecords | flash1/FlashControl.swift:273-285 | inside a message every change records exactly one digit for the ended run, 1 iff longer than the one time |
| InlineReceiver.RecordOne | flash1/FlashControl.swift:243-250 | appending a value to the bit buffer appends exactly its digit to the recorded digits |
| InlineReceiver.ReceiveKeepsRecord | flash1/FlashControl.swift:229-293 | over any sequence of samples the invariant holds and what has been recorded is only extended |
| InlineReceiver.StartRecordsMarkerRun | flash1/FlashControl.swift:259-285 | the long run that starts a message is itself recorded, as a 1 |
| InlineReceiver.DarkNeverStarts | flash1/FlashControl.swift:266-270 | a dark sample never starts a message |
| InlineReceiver.OneTimeRunRecordedAsZero | flash1/FlashControl.swift:274-280 | a run of exactly the one time is recorded as 0 |
| InlineReceiver.EndCapture | flash1/FlashControl.swift:186-198 | `endCapture` drops the waiting bits, clears the clock and hands over exactly the flushed words |
| InlineSampling.RunDigits | flash1/FlashControl.swift:274-280 | one digit per run, '1' exactly for a run longer than the one time |
| InlineSampling.EdgesAreInlineRuns | flash1/FlashControl.swift:256-292 | the ideally sampled edges of alternating pulses are received run by run, one step per pulse |
| InlineSampling.StartedRuns | flash1/FlashControl.swift:273-287 | inside a message, runs no longer than the marker time are recorded one digit each, no end is signalled and the level alternates |
| InlineSampling.IdleRuns | flash1/FlashControl.swift:256-287 | before a start, runs no longer than the marker time change only the brightness and the clock and report nothing |
| InlineSampling.StartedEdges | flash1/FlashControl.swift:273-285 | inside a message, the sampled pulses are recorded as their digits and no end is signalled |
| InlineSampling.ScheduleNeverStarts | flash1/FlashControl.swift:256-292 | the camera's samples of any message's schedule, from the start marker's first instant, never start the inline receiver: nothing is recorded or reported |
| InlineSampling.EdgeSamplesNeverStart | flash1/FlashControl.swift:256-292 | the same for the edge samples: no run of the schedule is longer than the marker time, so no start is ever seen |
| InlineSampling.NeverStartsBefore | flash1/FlashControl.swift:256-292 | samples that never start the receiver did not start it on the way: every prefix leaves no message, no record and no report |
| InlineSampling.SameLevel | flash1/FlashControl.swift:289-291 | samples of the brightness already seen only add their gaps to the run time and move the clock; nothing is reported |
| InlineSampling.LeadInStartsInline | flash1/FlashControl.swift:256-285 | a dark lead-in ending later than the marker time after reset starts a message at the start marker's first sample and records two 1s before the first digit |
| InlineSampling.AZNeverStarts | flash1/FlashControl.swift:20-37 | with the app's own timing, the "aZ" schedule sampled exactly leaves the inline receiver without a message |
| RoundTrip.Classification | flash1/Decoder.swift:91-106 | under separated thresholds a digit's pulse is a positive non-marker read back as its digit, and a marker pulse is a marker |
| RoundTrip.WordsDecode | flash1/Decoder.swift:102-125 | the digit runs of seven-digit words append their characters one by one and report the message after each |
| RoundTrip.RunsRoundTrip | flash1/Decoder.swift:89-150 | a message's run lengths fed to `addBit` from reset report the beginning, each character, and the whole message, and leave the decoder reset |
| RoundTrip.MarkerPulse | flash1/Decoder.swift:91-99 | a sampled marker pulse starts a message, or ends the current one and leaves the decoder reset |
| RoundTrip.EdgesAreRuns | flash1/Decoder.swift:60-85 | the sampled edges of alternating non-marker pulses are decoded exactly as if their lengths went straight to `addBit` |
| RoundTrip.EdgesRoundTrip | flash1/Decoder.swift:42-150 | the edge samples of any seven-digit message's schedule, fed to a reset decoder, report the beginning, each character, and the whole message in one capture result, and leave the decoder reset |
| RoundTrip.SamplesRoundTrip | flash1/Decoder.swift:42-150 | for an odd number of seven-digit words, the camera's samples of the schedule fed to a reset decoder report the beginning, each character, and the whole message in one capture result, and leave the decoder reset |
| RoundTrip.SevenDigitParity | flash1/FlashControl.swift:95-104 | seven-digit words hold an odd number of digits exactly when there is an odd number of words, so the end marker is light exactly then |
| RoundTrip.EvenWordsNeverEnd | flash1/FlashControl.swift:90-141 | for an even number of words the camera's samples report the beginning and each character in "Received:" statuses only; no capture result is posted and the decoder stays inside the message with the text gathered |
| RoundTrip.EvenWordsFeed | flash1/Decoder.swift:42-150 | the opening and the digits of an even number of words begin the message and report each character; the dark end marker's sample adds nothing |
| RoundTrip.FlashSampledInside | flash1/Decoder.swift:60-106 | a camera frame inside the closing flash, after the end marker's reset, starts the clock; the rest of the flash is then a run shorter than the zero time and becomes a stray 0 bit outside any message, with nothing reported |
| RoundTrip.ClosedRoundTripSampledInside | flash1/Decoder.swift:42-150 | with one more frame inside the closing flash, the message still comes back whole in one capture result, but the decoder keeps a stray 0 bit outside any message |
| RoundTrip.ClosedRoundTrip | flash1/FlashControl.swift:40-41 | with the closing flash, every message of seven-digit words comes back whole in one capture result, whatever the number of words; when the flash is seen only at its start and end, the decoder is also left reset apart from its clock |
| RoundTrip.LeadInRun | flash1/Decoder.swift:60-85 | a dark lead-in after `reset()` is measured from its first sample to its last when the start marker's first sample arrives |
| RoundTrip.LongLeadIn | flash1/Decoder.swift:91-100 | a dark lead-in longer than the marker time less the margin is taken for a marker: the real start marker then posts an empty capture result and resets the decoder |
| RoundTrip.ShortLeadIn | flash1/Decoder.swift:89-108 | a shorter dark lead-in of positive length becomes a stray first bit of the message the start marker begins |
| RoundTrip.AZDecoded | flash1/FlashControl.swift:20-36 | the example's words stand for "aZ" |
| RoundTrip.AZRuns | flash1/FlashControl.swift:20-37 | the sixteen "aZ" run lengths decode to "a", then "aZ", and end with "aZ" |
| RoundTrip.AZNeverEnds | flash1/FlashControl.swift:20-37 | the camera's samples of the "aZ" schedule report the beginning, "a" and "aZ", post no capture result, and leave the decoder inside the message |
| RoundTrip.AZClosed | flash1/FlashControl.swift:20-41 | with the closing flash, the "aZ" message is reported as the beginning, "a", "aZ", and one capture result "aZ" |

## Left out

- AVFoundation camera and torch handling, `getBrightness`, and the sleeps: hardware and foreign calls. Samples are given `(time, bright)` pairs, and a held pulse is an emitted `(duration, light)` pair.
- Dispatch queues, main-queue callbacks and `NSNotificationCenter`: each sample is one atomic step, and status texts and results are an event log. `Decoder.reset()` outside `endMessage` is modelled as setting the state directly.
- Float64 and `NSTimeInterval` arithmetic: time is integer ticks.
- `print` logging and the catch-all around the sends: they do not change state. A thrown torch error is not modelled, so `sendOneBit` either holds its pulse or, without a camera, does nothing.
- `ViewController` and the `NSString+Binary` category: UI glue, and conversions whose bodies are not part of this model. `stringWithBinaryCompose` is represented only by the list of words `endCapture` hands it.
- `Decoder._ascii7charBuffer`: it is only ever cleared, and nothing reads it.
- `startReceivingMessage` and `stopReceivingMessage`: session set-up, apart from the `resetMessageReceiving` and `endCapture` they call.
- Decoder.AddBit: its own contract states only the bit-group bound; the behaviour of each branch is stated by `MarkerBit`, `PartialStep` and `FullGroup`.
- The `Int32(fullWord)` nil branch: never taken (`SevenDigitWordFitsInt32`), so `AddBit` has no branch for it.
- Decoder.CharOf: `%c` is modelled as keeping the low eight bits of its argument; the conversion is stated only for codes below 256.
- Sampling noise: the samplers see each level change at its exact instant. Jitter, missed samples and resynchronisation after noise are not modelled.
- RoundTrip.EdgesRoundTrip, RoundTrip.SamplesRoundTrip, RoundTrip.ClosedRoundTrip and InlineSampling.ScheduleNeverStarts assume that sampling starts at the start marker's first instant. A receiver that was listening earlier sees a dark lead-in first. `LongLeadIn`, `ShortLeadIn` and `LeadInStartsInline` state what happens then, but only for a lead-in of dark samples followed directly by the opening.
- RoundTrip.ClosedRoundTrip: states the reset state after the closing flash only when the flash is sampled at its start and end. A camera frame inside the flash leaves a stray 0 bit that the next start marker does not clear (`ClosedRoundTripSampledInside`). So the corrected sender delivers each message, but it does not leave the decoder ready for the next one. Choosing a closing signal that leaves no stray bit is not modelled.
- RoundTrip.SamplesRoundTrip: holds only for an odd number of words. The even case is `EvenWordsNeverEnd`, listed under "Findings".

## Findings

| source | as written | input that shows it | evidently intended | confidence | as-written member | corrected member |
|---|---|---|---|---|---|---|
| flash1/FlashControl.swift:90-111 | the end marker's level follows the parity of the digit count. With an even count it is dark, like the torch after the transmission, so a camera does not see it end and the `Decoder` posts no `CAPTURE_RESULT` until the torch next lights | "aZ", two seven-digit words: sixteen pulses, the last one dark (`Transmitter.AZSchedule`) | the transmission ends with a visible change after the end marker, so that it is seen (`FlashControl.swift:40-41`) | medium, not executed | RoundTrip.EvenWordsNeverEnd, RoundTrip.AZNeverEnds | Transmitter.SendAMessageClosed with RoundTrip.ClosedRoundTrip and RoundTrip.AZClosed |

=== FILE: binary.dfy ===
/** Digit strings and the 7-bit character codes they carry.

 The sender is handed one '0'/'1' digit string per character; the decoder
 rebuilds such a string from seven received bits (`fullWord`), reads it as a
 decimal integer (`Int32(fullWord)`) and hands that integer to `binary_decimal`,
 which turns "decimal digits that are all 0 or 1" into the binary value they
 spell.  This module defines those conversions once.
 */
module Binary {

  /** 2 to the power n. */
  function Pow2(n: nat): (r: nat)
    ensures r >= 1
  {
    if n == 0 then 1 else 2 * Pow2(n - 1)
  }

  /** A seven-bit group has 128 values. */
  lemma Pow2Seven()
    ensures Pow2(7) == 128
  {
  }

  /** 10 to the power n. */
  function Pow10(n: nat): (r: nat)
    ensures r >= 1
  {
    if n == 0 then 1 else 10 * Pow10(n - 1)
  }

  /** Largest value an `Int32` can hold. */
  const Int32Max: int := 0x7FFF_FFFF

  /** Value of a bit sequence read most-significant bit first. */
  function MsbValue(bits: seq<bool>): (v: nat)
    ensures v < Pow2(|bits|)
  {
    if |bits| == 0 then 0
    else 2 * MsbValue(bits[..|bits| - 1]) + (if bits[|bits| - 1] then 1 else 0)
  }

  /** The bits a digit string stands for: '1' is a one, every other character a zero,
      which is how the sender chooses between the two pulse lengths. */
  function Bits(w: string): (bits: seq<bool>)
    ensures |bits| == |w|
    ensures forall i :: 0 <= i < |w| ==> (bits[i] <==> w[i] == '1')
  {
    seq(|w|, i requires 0 <= i < |w| => w[i] == '1')
  }

  /** `Int32(fullWord)`: the digit string of `bits` read as a decimal integer. */
  function DecimalWord(bits: seq<bool>): nat
  {
    if |bits| == 0 then 0
    else 10 * DecimalWord(bits[..|bits| - 1]) + (if bits[|bits| - 1] then 1 else 0)
  }

  /** The digits of a word are all 0 or 1, so nine times its decimal value
      stays below 10^|bits|. */
  lemma {:induction false} DecimalWordBound(bits: seq<bool>)
    ensures 9 * DecimalWord(bits) < Pow10(|bits|)
  {
    if |bits| > 0 {
      DecimalWordBound(bits[..|bits| - 1]);
    }
  }

  /** Parsing a seven-digit word never overflows an `Int32`, so the decoder's
      failed-parse branch cannot be taken. */
  lemma SevenDigitWordFitsInt32(bits: seq<bool>)
    requires |bits| == 7
    ensures DecimalWord(bits) <= 1111111 < Int32Max
  {
    DecimalWordBound(bits);
    assert Pow10(7) == 10000000 by {
      assert Pow10(1) == 10;
      assert Pow10(2) == 100;
      assert Pow10(3) == 1000;
      assert Pow10(4) == 10000;
      assert Pow10(5) == 100000;
      assert Pow10(6) == 1000000;
    }
  }

  /** The intended `binary_decimal`: the decimal digits of n, least significant
      last, read as binary digits. */
  function BinaryDecimal(n: int): int
    decreases if n < 0 then 0 else n
  {
    if n <= 0 then 0 else n % 10 + 2 * BinaryDecimal(n / 10)
  }

  /** `binary_decimal(Int32(fullWord))` is the most-significant-bit-first value of the
      bits the word was built from. */
  lemma {:induction false} BinaryDecimalOfWord(bits: seq<bool>)
    ensures BinaryDecimal(DecimalWord(bits)) == MsbValue(bits)
  {
    if |bits| > 0 {
      var front := bits[..|bits| - 1];
      var b := if bits[|bits| - 1] then 1 else 0;
      var n := DecimalWord(front);
      BinaryDecimalOfWord(front);
      assert DecimalWord(bits) == 10 * n + b;
      assert (10 * n + b) % 10 == b && (10 * n + b) / 10 == n;
      if 10 * n + b > 0 {
        assert BinaryDecimal(10 * n + b) == b + 2 * BinaryDecimal(n);
      } else {
        assert n == 0 && b == 0;
      }
    }
  }

  /** The `width`-digit binary string of c, most significant digit first: the
      digit strings the sender is handed (97, the letter a, is "1100001"). */
  function ToBinary(c: nat, width: nat): (w: string)
    ensures |w| == width
  {
    if width == 0 then ""
    else ToBinary(c / 2, width - 1) + (if c % 2 == 1 then "1" else "0")
  }

  /** Reading back the digits of `ToBinary` gives the value modulo 2^width. */
  lemma {:induction false} ToBinaryValue(c: nat, width: nat)
    ensures MsbValue(Bits(ToBinary(c, width))) == c % Pow2(width)
  {
    if width > 0 {
      var w := ToBinary(c, width);
      var front := ToBinary(c / 2, width - 1);
      ToBinaryValue(c / 2, width - 1);
      assert Bits(w)[..width - 1] == Bits(front);
      assert Bits(w)[width - 1] <==> c % 2 == 1;
      ModDouble(c, Pow2(width - 1));
    }
  }

  /** c mod 2p splits into its last binary digit and (c div 2) mod p. */
  lemma ModDouble(c: nat, p: nat)
    requires p >= 1
    ensures c % (2 * p) == 2 * ((c / 2) % p) + c % 2
  {
    var q := (c / 2) / p;
    var r := (c / 2) % p;
    assert c / 2 == q * p + r;
    assert c == (2 * p) * q + (2 * r + c % 2);
    ModUnique(c, 2 * p, q, 2 * r + c % 2);
  }

  /** Quotient and remainder are unique. */
  lemma ModUnique(c: int, d: int, q: int, r: int)
    requires d > 0 && c == d * q + r && 0 <= r < d
    ensures c % d == r
  {
    var q', r' := c / d, c % d;
    assert c == d * q' + r';
    var k := q - q';
    assert d * q - d * q' == d * k;
    assert d * k == r' - r;
    if k >= 1 {
      MulAtLeast(d, k);
    } else if k <= -1 {
      MulAtLeast(d, -k);
    }
  }

  /** A positive multiple of d is at least d. */
  lemma MulAtLeast(d: int, k: int)
    requires d > 0 && k >= 1
    ensures d * k >= d
  {
    assert d * k == d + d * (k - 1);
  }

  /** All the digit strings of a message, one after another. */
  function Concat(words: seq<string>): string
  {
    if |words| == 0 then "" else words[0] + Concat(words[1..])
  }

  /** Concatenating two messages concatenates their digits. */
  lemma {:induction false} ConcatAppend(a: seq<string>, b: seq<string>)
    ensures Concat(a + b) == Concat(a) + Concat(b)
  {
    if |a| > 0 {
      assert (a + b)[1..] == a[1..] + b;
      ConcatAppend(a[1..], b);
    } else {
      assert a + b == b;
    }
  }}

=== FILE: decoder.dfy ===
/** The factored receive state machine of the `Decoder` class.

 Samples `(time, bright)` arrive one at a time through `addFrame`.  Samples of
 the brightness already being measured are queued; a sample of the other
 brightness makes `checkFramesForBits` walk the queue, add up the gaps between
 same-brightness samples into the length of the run that just ended, and hand
 that length to `addBit`, which classifies it as a frame marker, a 0 or a 1,
 groups bits by seven and turns each group into a character.

 Time is counted in integer ticks.  Each call of `AddFrame` is one block of the
 decoder's serial queue, run to completion.  The `reset()` that `endMessage`
 issues is queued behind the block that issued it, so it is applied at the end
 of that step (`resetQueued`), before the next sample is looked at.
 */
module Decoder {
  import opened Binary
  import opened Signal

  /** The thresholds `addBit` compares run lengths against, and the
      `binary_decimal` conversion it applies to a full group. */
  datatype Config = Config(
    timeForZero: int,
    errorMarginTime: int,
    timeForStartOrEndOfTransmission: int,
    binaryDecimal: int -> int)

  /** The fields `addBit` reads and writes. */
  datatype MessageState = MessageState(bitsBuffer: seq<bool>, inMessage: bool, message: string)

  /** The whole decoder: the run-measuring fields of `checkFramesForBits` and the
      message being assembled. */
  datatype State = State(
    lastSampleReadWasBright: bool,
    lastTimeStamp: int,
    capturedFrames: seq<Frame>,
    assembly: MessageState)

  /** What the decoder reports: `updateUI` status text, and the `CAPTURE_RESULT`
      notification carrying a finished message. */
  datatype Event = Status(text: string) | CaptureResult(result: string)

  /** The effect of one `addBit` call: the new message state, what it reported,
      and whether `endMessage` queued a `reset()`. */
  datatype BitOutcome = BitOutcome(assembly: MessageState, events: seq<Event>, resetQueued: bool)

  /** The walk of `checkFramesForBits` over the queued samples. */
  datatype Scan = Scan(state: State, events: seq<Event>, resetQueued: bool)

  /** A completed step: the state left for the next sample and what was reported. */
  datatype Step = Step(state: State, events: seq<Event>)

  /** The message state after a sequence of runs, and what was reported. */
  datatype Trace = Trace(assembly: MessageState, events: seq<Event>)

  const BeginningOfMessage: string := "Beginning of Message"
  const ReceivedPrefix: string := "Received:"

  /** `reset()`: whatever the state, every field is set to the same value, so a
      second reset changes nothing.  No message is under way, none has been
      gathered, no time has been seen, the last brightness is taken to be dark,
      and the invariants hold. */
  function Reset(): (r: State)
    ensures Settled(r) && Bounded(r.assembly)
    ensures !r.assembly.inMessage && r.assembly.message == "" && r.assembly.bitsBuffer == []
    ensures r.lastTimeStamp == 0 && r.capturedFrames == [] && !r.lastSampleReadWasBright
  {
    State(false, 0, [], MessageState([], false, ""))
  }

  /** Every queued sample has the brightness of the run being measured: the
      queue only grows while the brightness does not change. */
  ghost predicate Settled(s: State)
  {
    forall i :: 0 <= i < |s.capturedFrames| ==> s.capturedFrames[i].bright == s.lastSampleReadWasBright
  }

  /** Between runs a bit group is never full. */
  predicate Bounded(m: MessageState)
  {
    |m.bitsBuffer| <= 6
  }

  /** A run longer than the marker time less the margin is a frame marker. */
  predicate IsMarker(cfg: Config, seconds: int)
  {
    seconds > cfg.timeForStartOrEndOfTransmission - cfg.errorMarginTime
  }

  /** The bit a run that is not a marker stands for: 0 below the zero time plus
      the margin, 1 from there on. */
  predicate BitOf(cfg: Config, seconds: int)
  {
    !(seconds < cfg.timeForZero + cfg.errorMarginTime)
  }

  /** The character `NSString(format: "%c", v)` produces: `%c` keeps the low
      eight bits of its argument. */
  function CharOf(v: int): (c: char)
    ensures 0 <= v < 256 ==> c as int == v
  {
    (v % 256) as char
  }

  /** `addBit`: classify one run and update the message state. */
  function AddBit(cfg: Config, m: MessageState, seconds: int): (r: BitOutcome)
    ensures Bounded(m) ==> Bounded(r.assembly)
  {
    if IsMarker(cfg, seconds) then
      if m.inMessage then
        // endMessage: report the message and queue a reset
        BitOutcome(m.(inMessage := !m.inMessage), [CaptureResult(m.message)], true)
      else
        BitOutcome(m.(inMessage := !m.inMessage), [Status(BeginningOfMessage)], false)
    else
      var bits := m.bitsBuffer + [BitOf(cfg, seconds)];
      if |bits| == 7 then
        var value := cfg.binaryDecimal(DecimalWord(bits));
        if value <= 127 then
          var message := m.message + [CharOf(value)];
          BitOutcome(m.(bitsBuffer := [], message := message), [Status(ReceivedPrefix + message)], false)
        else
          BitOutcome(m.(bitsBuffer := bits[1..]), [], false)
      else
        BitOutcome(m.(bitsBuffer := bits), [], false)
  }

  /** A run reaches `addBit` only when its measured length is positive. */
  function RunBit(cfg: Config, m: MessageState, seconds: int): BitOutcome
  {
    if seconds > 0 then AddBit(cfg, m, seconds) else BitOutcome(m, [], false)
  }

  /** `checkFramesForBits`: walk the queued samples in order.  `modeTime` is the
      length of the run measured so far; the gap to a sample of the other
      brightness is not part of the run. */
  function CheckFramesForBits(cfg: Config, sc: Scan, modeTime: int): (r: Scan)
    decreases |sc.state.capturedFrames|
    ensures r.state.capturedFrames == []
    ensures Bounded(sc.state.assembly) ==> Bounded(r.state.assembly)
  {
    var s := sc.state;
    if |s.capturedFrames| == 0 then sc
    else
      var frame := s.capturedFrames[0];
      var seconds := if s.lastTimeStamp != 0 then frame.time - s.lastTimeStamp else 0;
      var s1 := s.(lastTimeStamp := frame.time);
      if s1.lastSampleReadWasBright == frame.bright then
        CheckFramesForBits(cfg, sc.(state := s1.(capturedFrames := s1.capturedFrames[1..])), modeTime + seconds)
      else
        var bit := RunBit(cfg, s1.assembly, modeTime);
        var s2 := s1.(assembly := bit.assembly,
                      lastSampleReadWasBright := frame.bright,
                      capturedFrames := s1.capturedFrames[1..]);
        // modeTime is cleared only when a bit was added
        CheckFramesForBits(cfg, Scan(s2, sc.events + bit.events, sc.resetQueued || bit.resetQueued),
                           if modeTime > 0 then 0 else modeTime)
  }

  /** `addFrame`: queue the sample, and walk the queue when its brightness
      differs from the run being measured.  A sample of the brightness being
      measured only joins the queue and reports nothing; any other sample
      empties the queue.  The bit group stays below seven. */
  function AddFrame(cfg: Config, s: State, time: int, bright: bool): (r: Step)
    ensures bright == s.lastSampleReadWasBright ==>
              r.events == [] && r.state.capturedFrames == s.capturedFrames + [Frame(time, bright)]
    ensures bright != s.lastSampleReadWasBright ==> r.state.capturedFrames == []
    ensures Bounded(s.assembly) ==> Bounded(r.state.assembly)
  {
    var queued := s.(capturedFrames := s.capturedFrames + [Frame(time, bright)]);
    if bright != s.lastSampleReadWasBright then
      var sc := CheckFramesForBits(cfg, Scan(queued, [], false), 0);
      Step(if sc.resetQueued then Reset() else sc.state, sc.events)
    else
      Step(queued, [])
  }

  /** Feed a sequence of samples, one `addFrame` step each. */
  function Feed(cfg: Config, s: State, frames: seq<Frame>): Step
    decreases |frames|
  {
    if |frames| == 0 then Step(s, [])
    else
      var first := AddFrame(cfg, s, frames[0].time, frames[0].bright);
      var rest := Feed(cfg, first.state, frames[1..]);
      Step(rest.state, first.events + rest.events)
  }

  /** One `addFrame` keeps the queue settled and the bit group below seven: a
      sample of unchanged brightness joins the queue, any other empties it. */
  lemma AddFrameKeeps(cfg: Config, s: State, time: int, bright: bool)
    ensures var r := AddFrame(cfg, s, time, bright);
            && (bright != s.lastSampleReadWasBright ==> r.state.capturedFrames == [])
            && (Settled(s) ==> Settled(r.state))
            && (Bounded(s.assembly) ==> Bounded(r.state.assembly))
  {
  }

  /** Any sequence of samples keeps the queue settled and the bit group below
      seven. */
  lemma {:induction false} FeedKeeps(cfg: Config, s: State, frames: seq<Frame>)
    requires Settled(s) && Bounded(s.assembly)
    ensures Settled(Feed(cfg, s, frames).state) && Bounded(Feed(cfg, s, frames).state.assembly)
    decreases |frames|
  {
    if |frames| > 0 {
      AddFrameKeeps(cfg, s, frames[0].time, frames[0].bright);
      FeedKeeps(cfg, AddFrame(cfg, s, frames[0].time, frames[0].bright).state, frames[1..]);
    }
  }

  /** Samples of the brightness being measured are only queued: nothing is
      walked and nothing is reported, however many arrive. */
  lemma {:induction false} FeedSame(cfg: Config, s: State, frames: seq<Frame>)
    requires forall i :: 0 <= i < |frames| ==> frames[i].bright == s.lastSampleReadWasBright
    ensures Feed(cfg, s, frames) == Step(s.(capturedFrames := s.capturedFrames + frames), [])
    decreases |frames|
  {
    if |frames| == 0 {
      assert s.capturedFrames + frames == s.capturedFrames;
    } else {
      var f := frames[0];
      var s1 := s.(capturedFrames := s.capturedFrames + [f]);
      assert AddFrame(cfg, s, f.time, f.bright) == Step(s1, []);
      FeedSame(cfg, s1, frames[1..]);
      HeadTail([f], frames[1..]);
      assert frames == [f] + frames[1..];
      ConcatAssoc(s.capturedFrames, [f], frames[1..]);
    }
  }

  /** Feeding `a + b` is feeding `a`, then `b` from where `a` left off. */
  lemma {:induction false} FeedAppend(cfg: Config, s: State, a: seq<Frame>, b: seq<Frame>)
    ensures var x := Feed(cfg, s, a);
            var y := Feed(cfg, x.state, b);
            Feed(cfg, s, a + b) == Step(y.state, x.events + y.events)
    decreases |a|
  {
    if |a| == 0 {
      assert a + b == b;
    } else {
      var first := AddFrame(cfg, s, a[0].time, a[0].bright);
      assert (a + b)[0] == a[0];
      assert (a + b)[1..] == a[1..] + b;
      FeedAppend(cfg, first.state, a[1..], b);
    }
  }

  // ---------------------------------------------------------------------------
  // Run segmentation

  /** The length of a run whose samples are `run` when the previous sample was
      taken at `last`: from the run's first sample (the one at `last`, or the
      run's own first one when `last` is the "no time yet" zero) to its last. */
  function RunLength(last: int, run: seq<Frame>): int
  {
    if |run| == 0 then 0
    else run[|run| - 1].time - (if last != 0 then last else run[0].time)
  }

  /** The effect of a run of length `seconds` ending with a sample of brightness
      `bright`: a positive run is handed to `addBit`, and a queued reset wins. */
  function EndRun(cfg: Config, s: State, seconds: int, bright: bool): Step
  {
    var bit := RunBit(cfg, s.assembly, seconds);
    if bit.resetQueued then Step(Reset(), bit.events)
    else Step(s.(assembly := bit.assembly, lastSampleReadWasBright := bright), bit.events)
  }

  /** Walking a queue of one run followed by a sample of the other brightness
      adds the run's length to `modeTime` and hands the total to `addBit`. */
  lemma {:induction false} ScanRun(cfg: Config, sc: Scan, modeTime: int, time: int, bright: bool)
    requires |sc.state.capturedFrames| >= 1
    requires sc.state.capturedFrames[|sc.state.capturedFrames| - 1] == Frame(time, bright)
    requires bright != sc.state.lastSampleReadWasBright
    requires forall i :: 0 <= i < |sc.state.capturedFrames| - 1 ==>
               sc.state.capturedFrames[i].bright == sc.state.lastSampleReadWasBright
               && sc.state.capturedFrames[i].time != 0
    ensures
      var s := sc.state;
      var run := s.capturedFrames[..|s.capturedFrames| - 1];
      var bit := RunBit(cfg, s.assembly, modeTime + RunLength(s.lastTimeStamp, run));
      CheckFramesForBits(cfg, sc, modeTime)
        == Scan(s.(lastTimeStamp := time, capturedFrames := [], assembly := bit.assembly,
                   lastSampleReadWasBright := bright),
                sc.events + bit.events, sc.resetQueued || bit.resetQueued)
  {
    var s := sc.state;
    var frames := s.capturedFrames;
    var same := frames[..|frames| - 1];
    var rest := [Frame(time, bright)];
    assert frames == same + rest;
    assert sc == Scan(State(s.lastSampleReadWasBright, s.lastTimeStamp, same + rest, s.assembly), sc.events, sc.resetQueued);
    ScanSkip(cfg, s.lastSampleReadWasBright, s.lastTimeStamp, same, rest, s.assembly, sc.events, sc.resetQueued, modeTime);
    ScanLast(cfg, Scan(State(s.lastSampleReadWasBright, LastStamp(s.lastTimeStamp, same), rest, s.assembly),
                       sc.events, sc.resetQueued),
             modeTime + RunLength(s.lastTimeStamp, same));
  }

  /** Where the clock stands once the samples `same` have been walked from
      `stamp`: at the last of them. */
  function LastStamp(stamp: int, same: seq<Frame>): int
  {
    if |same| == 0 then stamp else same[|same| - 1].time
  }

  /** Walking queued samples of the run's own brightness only moves the clock
      to the last of them and adds their run's length to `modeTime`. */
  lemma {:induction false} ScanSkip(cfg: Config, bright: bool, stamp: int, same: seq<Frame>, rest: seq<Frame>,
                                    m: MessageState, events: seq<Event>, queued: bool, modeTime: int)
    requires forall i :: 0 <= i < |same| ==> same[i].bright == bright && same[i].time != 0
    ensures CheckFramesForBits(cfg, Scan(State(bright, stamp, same + rest, m), events, queued), modeTime)
            == CheckFramesForBits(cfg, Scan(State(bright, LastStamp(stamp, same), rest, m), events, queued),
                                  modeTime + RunLength(stamp, same))
    decreases |same|
  {
    if |same| == 0 {
      assert same + rest == rest;
    } else {
      var seconds := if stamp != 0 then same[0].time - stamp else 0;
      HeadTail(same, rest);
      ScanSame(cfg, bright, stamp, same + rest, m, events, queued, modeTime);
      SkipStep(stamp, same);
      ScanSkip(cfg, bright, same[0].time, same[1..], rest, m, events, queued, modeTime + seconds);
    }
  }

  /** Walking one queued sample of the run's own brightness keeps where the
      walk ends, and moves its gap from the run's length to `modeTime`. */
  lemma SkipStep(stamp: int, same: seq<Frame>)
    requires |same| >= 1 && same[0].time != 0
    ensures var seconds := if stamp != 0 then same[0].time - stamp else 0;
            && LastStamp(same[0].time, same[1..]) == LastStamp(stamp, same)
            && seconds + RunLength(same[0].time, same[1..]) == RunLength(stamp, same)
  {
  }

  /** A single queued sample of the other brightness ends the run measured so
      far and empties the queue. */
  lemma ScanLast(cfg: Config, sc: Scan, modeTime: int)
    requires |sc.state.capturedFrames| == 1
    requires sc.state.capturedFrames[0].bright != sc.state.lastSampleReadWasBright
    ensures var s := sc.state;
            var frame := s.capturedFrames[0];
            var bit := RunBit(cfg, s.assembly, modeTime);
            CheckFramesForBits(cfg, sc, modeTime)
            == Scan(s.(lastTimeStamp := frame.time, capturedFrames := [], assembly := bit.assembly,
                       lastSampleReadWasBright := frame.bright),
                    sc.events + bit.events, sc.resetQueued || bit.resetQueued)
  {
    assert sc.state.capturedFrames[1..] == [];
  }

  /** A queued sample of the run's own brightness only moves the clock and
      adds its gap to `modeTime`. */
  lemma ScanSame(cfg: Config, bright: bool, stamp: int, frames: seq<Frame>, m: MessageState,
                 events: seq<Event>, queued: bool, modeTime: int)
    requires |frames| >= 1 && frames[0].bright == bright
    ensures var seconds := if stamp != 0 then frames[0].time - stamp else 0;
            CheckFramesForBits(cfg, Scan(State(bright, stamp, frames, m), events, queued), modeTime)
            == CheckFramesForBits(cfg, Scan(State(bright, frames[0].time, frames[1..], m), events, queued),
                                  modeTime + seconds)
  {
  }

  /** Run duration: when a sample of the other brightness arrives, the run that
      ends is measured from its first sample to its last same-brightness sample
      (the gap to the new sample is not counted), handed to `addBit` if that
      length is positive, and the brightness switches -- unless `endMessage`
      queued a reset, which then leaves every field at its reset value. */
  lemma RunDuration(cfg: Config, s: State, time: int, bright: bool)
    requires Settled(s) && bright != s.lastSampleReadWasBright
    requires forall i :: 0 <= i < |s.capturedFrames| ==> s.capturedFrames[i].time != 0
    ensures AddFrame(cfg, s, time, bright)
            == EndRun(cfg, s.(lastTimeStamp := time, capturedFrames := []),
                      RunLength(s.lastTimeStamp, s.capturedFrames), bright)
  {
    var queued := s.(capturedFrames := s.capturedFrames + [Frame(time, bright)]);
    assert queued.capturedFrames[..|queued.capturedFrames| - 1] == s.capturedFrames;
    ScanRun(cfg, Scan(queued, [], false), 0, time, bright);
  }

  /** Zero-length runs: a run measured as zero or less -- a run of one sample,
      or the samples that follow a reset while no time has been seen -- never
      reaches `addBit`: nothing is reported and the message state is unchanged. */
  lemma ShortRunIgnored(cfg: Config, s: State, time: int, bright: bool)
    requires Settled(s) && bright != s.lastSampleReadWasBright
    requires forall i :: 0 <= i < |s.capturedFrames| ==> s.capturedFrames[i].time != 0
    requires RunLength(s.lastTimeStamp, s.capturedFrames) <= 0
    ensures AddFrame(cfg, s, time, bright)
            == Step(s.(lastTimeStamp := time, capturedFrames := [], lastSampleReadWasBright := bright), [])
  {
    RunDuration(cfg, s, time, bright);
  }

  /** The first bright sample after a reset only starts timing: nothing is
      classified.  A first dark sample is queued with the clock still at zero. */
  lemma FirstSampleAfterReset(cfg: Config, time: int, bright: bool)
    ensures bright ==> AddFrame(cfg, Reset(), time, bright)
                       == Step(Reset().(lastTimeStamp := time, lastSampleReadWasBright := true), [])
    ensures !bright ==> AddFrame(cfg, Reset(), time, bright)
                        == Step(Reset().(capturedFrames := [Frame(time, false)]), [])
  {
    if bright {
      ShortRunIgnored(cfg, Reset(), time, bright);
    }
  }

  /** A dark first run after `reset()` is not ignored: with the clock at zero
      the first gap counts as nothing, so the run is measured from its own
      first sample to its last and handed to `addBit` when a bright sample
      ends it. */
  lemma DarkFirstRunMeasured(cfg: Config, run: seq<Frame>, time: int)
    requires |run| >= 1
    requires forall i :: 0 <= i < |run| ==> !run[i].bright && run[i].time != 0
    ensures AddFrame(cfg, Reset().(capturedFrames := run), time, true)
            == EndRun(cfg, Reset().(lastTimeStamp := time), run[|run| - 1].time - run[0].time, true)
  {
    RunDuration(cfg, Reset().(capturedFrames := run), time, true);
  }

  /** Marker runs: a marker that ends a message while one is being received
      reports the message and leaves every field at its reset value; a marker
      outside a message reports the beginning of one, sets `inMessage`, and
      clears neither the bits nor the message gathered before it. */
  lemma MarkerRun(cfg: Config, s: State, time: int, bright: bool)
    requires Settled(s) && bright != s.lastSampleReadWasBright
    requires forall i :: 0 <= i < |s.capturedFrames| ==> s.capturedFrames[i].time != 0
    requires IsMarker(cfg, RunLength(s.lastTimeStamp, s.capturedFrames))
    requires RunLength(s.lastTimeStamp, s.capturedFrames) > 0
    ensures s.assembly.inMessage ==>
              AddFrame(cfg, s, time, bright) == Step(Reset(), [CaptureResult(s.assembly.message)])
    ensures !s.assembly.inMessage ==>
              AddFrame(cfg, s, time, bright)
              == Step(State(bright, time, [], s.assembly.(inMessage := true)), [Status(BeginningOfMessage)])
  {
    RunDuration(cfg, s, time, bright);
  }

  // ---------------------------------------------------------------------------
  // Runs fed straight to addBit

  /** `binary_decimal` is the intended conversion, most significant bit first. */
  ghost predicate MsbFirst(cfg: Config)
  {
    forall n: int :: 0 <= n ==> cfg.binaryDecimal(n) == BinaryDecimal(n)
  }

  /** Feed a sequence of positive run lengths to `addBit`, applying a queued reset
      before the next run, as the sample-level decoder does. */
  function FeedRuns(cfg: Config, m: MessageState, durations: seq<int>): Trace
    decreases |durations|
  {
    if |durations| == 0 then Trace(m, [])
    else
      var bit := AddBit(cfg, m, durations[0]);
      var rest := FeedRuns(cfg, if bit.resetQueued then Reset().assembly else bit.assembly, durations[1..]);
      Trace(rest.assembly, bit.events + rest.events)
  }

  /** `FeedAppend` for a sequence of samples already known to be `a + b`. */
  lemma FeedSplit(cfg: Config, s: State, a: seq<Frame>, b: seq<Frame>, frames: seq<Frame>)
    requires frames == a + b
    ensures var x := Feed(cfg, s, a);
            var y := Feed(cfg, x.state, b);
            Feed(cfg, s, frames) == Step(y.state, x.events + y.events)
  {
    FeedAppend(cfg, s, a, b);
  }

  /** Feeding a sequence that starts with `f` is one `addFrame` step for `f`,
      then the rest from the state it left. */
  lemma FeedCons(cfg: Config, s: State, f: Frame, rest: seq<Frame>, frames: seq<Frame>)
    requires frames == [f] + rest
    ensures var first := AddFrame(cfg, s, f.time, f.bright);
            var more := Feed(cfg, first.state, rest);
            Feed(cfg, s, frames) == Step(more.state, first.events + more.events)
  {
    assert frames[0] == f && frames[1..] == rest;
  }

  /** Feeding one sample is one `addFrame` step. */
  lemma FeedOne(cfg: Config, s: State, f: Frame)
    ensures Feed(cfg, s, [f]) == AddFrame(cfg, s, f.time, f.bright)
  {
    var r := AddFrame(cfg, s, f.time, f.bright);
    assert [f][1..] == [];
    assert r.events + [] == r.events;
  }

  /** A last sample of the brightness being measured only joins the queue:
      what was reported and the message state are those before it. */
  lemma FeedQuietLast(cfg: Config, s: State, a: seq<Frame>, f: Frame, frames: seq<Frame>, before: Step)
    requires frames == a + [f] && Feed(cfg, s, a) == before && f.bright == before.state.lastSampleReadWasBright
    ensures Feed(cfg, s, frames).events == before.events
    ensures Feed(cfg, s, frames).state.assembly == before.state.assembly
  {
    FeedAppend(cfg, s, a, [f]);
    FeedSame(cfg, before.state, [f]);
    assert before.events + [] == before.events;
  }

  /** A first run that is not a marker queues no reset: the rest is fed from
      the state `addBit` left. */
  lemma RunsCons(cfg: Config, m: MessageState, durations: seq<int>)
    requires |durations| > 0 && !IsMarker(cfg, durations[0])
    ensures var bit := AddBit(cfg, m, durations[0]);
            var more := FeedRuns(cfg, bit.assembly, durations[1..]);
            FeedRuns(cfg, m, durations) == Trace(more.assembly, bit.events + more.events)
  {
  }

  /** Feeding `a + b` is feeding `a`, then `b` from where `a` left off. */
  lemma {:induction false} FeedRunsAppend(cfg: Config, m: MessageState, a: seq<int>, b: seq<int>)
    ensures var x := FeedRuns(cfg, m, a);
            var y := FeedRuns(cfg, x.assembly, b);
            FeedRuns(cfg, m, a + b) == Trace(y.assembly, x.events + y.events)
    decreases |a|
  {
    if |a| == 0 {
      assert a + b == b;
    } else {
      var bit := AddBit(cfg, m, a[0]);
      var next := if bit.resetQueued then Reset().assembly else bit.assembly;
      var ab := a + b;
      assert ab[0] == a[0];
      assert ab[1..] == a[1..] + b;
      var x := FeedRuns(cfg, next, a[1..]);
      var y := FeedRuns(cfg, x.assembly, b);
      assert FeedRuns(cfg, m, a) == Trace(x.assembly, bit.events + x.events);
      assert FeedRuns(cfg, next, ab[1..]) == Trace(y.assembly, x.events + y.events) by {
        FeedRunsAppend(cfg, next, a[1..], b);
      }
      assert FeedRuns(cfg, m, ab) == Trace(y.assembly, bit.events + (x.events + y.events));
      assert bit.events + (x.events + y.events) == (bit.events + x.events) + y.events;
    }
  }

  /** Marker runs at the `addBit` level: a marker flips `inMessage` and leaves
      the bits and the message as they were; it reports the message and queues
      a reset when it ends one, and reports a beginning otherwise. */
  lemma MarkerBit(cfg: Config, m: MessageState, seconds: int)
    requires IsMarker(cfg, seconds)
    ensures var r := AddBit(cfg, m, seconds);
            && r.assembly.bitsBuffer == m.bitsBuffer && r.assembly.message == m.message
            && r.assembly.inMessage == !m.inMessage
            && (m.inMessage ==> r.events == [CaptureResult(m.message)] && r.resetQueued)
            && (!m.inMessage ==> r.events == [Status(BeginningOfMessage)] && !r.resetQueued)
  {
  }

  /** Decoding a full group: the seventh bit completes a group whose
      `binary_decimal` value is either at most 127, and then the message grows
      by that character, the group is emptied and the grown message reported,
      or larger, and then the oldest bit is dropped, the other six keep their
      order and the message is unchanged. */
  lemma FullGroup(cfg: Config, m: MessageState, seconds: int)
    requires !IsMarker(cfg, seconds) && |m.bitsBuffer| == 6
    ensures var group := m.bitsBuffer + [BitOf(cfg, seconds)];
            var value := cfg.binaryDecimal(DecimalWord(group));
            var r := AddBit(cfg, m, seconds);
            && r.assembly.inMessage == m.inMessage && !r.resetQueued
            && (value <= 127 ==>
                  && r.assembly.bitsBuffer == []
                  && r.assembly.message == m.message + [CharOf(value)]
                  && r.events == [Status(ReceivedPrefix + r.assembly.message)])
            && (value > 127 ==>
                  && r.assembly.bitsBuffer == m.bitsBuffer[1..] + [BitOf(cfg, seconds)]
                  && r.assembly.message == m.message
                  && r.events == [])
  {
    HeadTail(m.bitsBuffer, [BitOf(cfg, seconds)]);
  }

  /** The bits a sequence of non-marker runs stands for. */
  function BitsOf(cfg: Config, durations: seq<int>): (bits: seq<bool>)
    ensures |bits| == |durations|
  {
    seq(|durations|, i requires 0 <= i < |durations| => BitOf(cfg, durations[i]))
  }

  /** Non-marker runs that do not fill a group only add their bits, in order. */
  lemma {:induction false} FeedPartialGroup(cfg: Config, m: MessageState, durations: seq<int>)
    requires forall i :: 0 <= i < |durations| ==> !IsMarker(cfg, durations[i])
    requires |m.bitsBuffer| + |durations| <= 6
    ensures FeedRuns(cfg, m, durations)
            == Trace(m.(bitsBuffer := m.bitsBuffer + BitsOf(cfg, durations)), [])
    decreases |durations|
  {
    if |durations| > 0 {
      var d := durations[0];
      var tail := durations[1..];
      var m1 := m.(bitsBuffer := m.bitsBuffer + [BitOf(cfg, d)]);
      PartialStep(cfg, m, d);
      FeedPartialGroup(cfg, m1, tail);
      BitsOfCons(cfg, durations);
      assert m1.bitsBuffer + BitsOf(cfg, tail) == m.bitsBuffer + BitsOf(cfg, durations);
    }
  }

  /** Non-marker runs: a run that is not a marker appends exactly one bit, 0
      exactly when it is shorter than the zero time plus the margin, whether or
      not a message is under way; below seven bits nothing else changes. */
  lemma PartialStep(cfg: Config, m: MessageState, d: int)
    requires !IsMarker(cfg, d) && |m.bitsBuffer| < 6
    ensures AddBit(cfg, m, d) == BitOutcome(m.(bitsBuffer := m.bitsBuffer + [BitOf(cfg, d)]), [], false)
  {
  }

  /** The first run's bit, then the others'. */
  lemma BitsOfCons(cfg: Config, durations: seq<int>)
    requires |durations| > 0
    ensures BitsOf(cfg, durations) == [BitOf(cfg, durations[0])] + BitsOf(cfg, durations[1..])
  {
  }

  /** The resynchronisation branch is unreachable with the intended
      `binary_decimal`: a full group is worth at most 127, so it always becomes
      a character, the group is emptied, and the message grows by that
      character. */
  lemma FullGroupAlwaysDecodes(cfg: Config, m: MessageState, seconds: int)
    requires MsbFirst(cfg) && |m.bitsBuffer| == 6 && !IsMarker(cfg, seconds)
    ensures var group := m.bitsBuffer + [BitOf(cfg, seconds)];
            var message := m.message + [CharOf(MsbValue(group))];
            AddBit(cfg, m, seconds)
            == BitOutcome(m.(bitsBuffer := [], message := message), [Status(ReceivedPrefix + message)], false)
  {
    var group := m.bitsBuffer + [BitOf(cfg, seconds)];
    BinaryDecimalOfWord(group);
    Pow2Seven();
  }

  /** Seven non-marker runs from an empty group add one character, the value of
      their bits most significant first, and report the grown message. */
  lemma WordOfSevenRuns(cfg: Config, m: MessageState, durations: seq<int>)
    requires MsbFirst(cfg)
    requires m.bitsBuffer == [] && |durations| == 7
    requires forall i :: 0 <= i < |durations| ==> !IsMarker(cfg, durations[i])
    ensures var message := m.message + [CharOf(MsbValue(BitsOf(cfg, durations)))];
            FeedRuns(cfg, m, durations)
            == Trace(m.(message := message), [Status(ReceivedPrefix + message)])
  {
    var front := durations[..6];
    var last := durations[6..];
    assert durations == front + last;
    FeedRunsAppend(cfg, m, front, last);
    FeedPartialGroup(cfg, m, front);
    var m6 := m.(bitsBuffer := BitsOf(cfg, front));
    assert FeedRuns(cfg, m, front) == Trace(m6, []);
    FullGroupAlwaysDecodes(cfg, m6, durations[6]);
    var group := BitsOf(cfg, front) + [BitOf(cfg, durations[6])];
    assert group == BitsOf(cfg, durations);
    var message := m.message + [CharOf(MsbValue(group))];
    var bit := AddBit(cfg, m6, durations[6]);
    assert bit == BitOutcome(m.(message := message), [Status(ReceivedPrefix + message)], false);
    assert FeedRuns(cfg, m6, last) == Trace(bit.assembly, bit.events + FeedRuns(cfg, bit.assembly, []).events);
  }
}

=== FILE: inline_receiver.dfy ===
/** The older receiver written inline in `FlashControl.captureOutput`.

 Every camera frame yields one sample.  While the brightness stays the same the
 gap since the previous sample is added to `currentSampleBrightnessTime`; when
 it changes, the run that ended is judged: a run longer than the marker time
 ends a started message, or starts one if the new sample is bright, and while a
 message is started every ended run -- the marker run included -- is recorded
 as a 1 if it is longer than the one time and as a 0 otherwise.  Seven recorded
 bits are flushed to `readBuffer` as a '0'/'1' word by the nested `endWord`.

 The `endCapture` that a detected end schedules on the main queue is reported
 as an event here and modelled as the separate operation `EndCapture`.
 */
module InlineReceiver {
  import opened Binary
  import opened Signal

  /** The receive fields of `FlashControl`. */
  datatype ReceiverState = ReceiverState(
    lastSampleReadWasBright: bool,
    currentSampleBrightnessTime: int,
    readBuffer: seq<string>,
    ascii7charBuffer: seq<int>,
    lastTimeStamp: int,
    messageHasStarted: bool)

  /** What the receiver reports: `logStatus` text, and the scheduling of
      `endCapture` on the main queue. */
  datatype Event = LogStatus(text: string) | EndCaptureQueued

  /** A completed step: the state left for the next sample and what was reported. */
  datatype Step = Step(state: ReceiverState, events: seq<Event>)

  /** What `endCapture` leaves, and the words it hands to `binaryCompose`. */
  datatype Capture = Capture(state: ReceiverState, result: seq<string>)

  const WordPrefix: string := "Word: "
  const EndingMessage: string := "Ending Message Receive"
  const StartingMessage: string := "Starting Message Receive"

  /** `resetMessageReceiving`, called when receiving starts: no message, nothing
      recorded, the last brightness taken to be dark, no run time, and the clock
      at zero, so the first sample's gap is measured from time zero. */
  function ResetMessageReceiving(): (r: ReceiverState)
    ensures !r.messageHasStarted && Recorded(r) == "" && Valid(r)
    ensures r.readBuffer == [] && r.ascii7charBuffer == []
    ensures !r.lastSampleReadWasBright && r.currentSampleBrightnessTime == 0 && r.lastTimeStamp == 0
  {
    ReceiverState(false, 0, [], [], 0, false)
  }

  /** The '1'/'0' word `endWord` builds: 1 is '1', any other value '0'. */
  function FullWord(buffer: seq<int>): (w: string)
    ensures |w| == |buffer|
    ensures forall i :: 0 <= i < |buffer| ==> w[i] in "01" && (w[i] == '1' <==> buffer[i] == 1)
  {
    seq(|buffer|, i requires 0 <= i < |buffer| => if buffer[i] == 1 then '1' else '0')
  }

  /** Every digit the receiver has recorded: the flushed words, then the bits
      still waiting in the buffer. */
  function Recorded(s: ReceiverState): string
  {
    Concat(s.readBuffer) + FullWord(s.ascii7charBuffer)
  }

  /** The invariant between samples: fewer than seven waiting bits, each 0 or 1;
      every flushed word a '0'/'1' string of at most seven digits; and nothing
      recorded before a message has started. */
  ghost predicate Valid(s: ReceiverState)
  {
    && |s.ascii7charBuffer| <= 6
    && (forall i :: 0 <= i < |s.ascii7charBuffer| ==> s.ascii7charBuffer[i] in {0, 1})
    && (forall k :: 0 <= k < |s.readBuffer| ==> |s.readBuffer[k]| <= 7 && forall j :: 0 <= j < |s.readBuffer[k]| ==> s.readBuffer[k][j] in "01")
    && (!s.messageHasStarted ==> s.ascii7charBuffer == [] && s.readBuffer == [])
  }

  /** The nested `endWord`: move the waiting bits to `readBuffer` as one more
      word and empty the buffer; nothing else changes. */
  function EndWord(s: ReceiverState): (r: Step)
    ensures r.state.ascii7charBuffer == []
    ensures |r.state.readBuffer| == |s.readBuffer| + 1 && r.state.readBuffer[..|s.readBuffer|] == s.readBuffer
    ensures r.state == s.(readBuffer := r.state.readBuffer, ascii7charBuffer := [])
  {
    var word := FullWord(s.ascii7charBuffer);
    Step(s.(readBuffer := s.readBuffer + [word], ascii7charBuffer := []), [LogStatus(WordPrefix + word)])
  }

  /** The word `endWord` flushes has one '0'/'1' digit per waiting bit, '1' for
      a 1, and is logged; the recorded digits do not change. */
  lemma EndWordKeepsRecord(s: ReceiverState)
    ensures var r := EndWord(s);
            var w := r.state.readBuffer[|s.readBuffer|];
            && |w| == |s.ascii7charBuffer|
            && (forall i :: 0 <= i < |w| ==> w[i] in "01" && (w[i] == '1' <==> s.ascii7charBuffer[i] == 1))
            && r.events == [LogStatus(WordPrefix + w)]
            && Recorded(r.state) == Recorded(s)
  {
    var word := FullWord(s.ascii7charBuffer);
    ConcatAppend(s.readBuffer, [word]);
    assert Concat([word]) == word;
  }

  /** The digit a run of length `seconds` is recorded as: 1 only when it is
      strictly longer than the one time. */
  function DigitOf(tm: Timing, seconds: int): int
  {
    if seconds > tm.timeForOne then 1 else 0
  }

  /** `captureOutput` for one sample taken at `time`. */
  function CaptureOutput(tm: Timing, s: ReceiverState, time: int, isBright: bool): (r: Step)
    // unchanged brightness: the gap since the last sample is added to the run, nothing else changes
    ensures isBright == s.lastSampleReadWasBright ==>
              r == Step(s.(currentSampleBrightnessTime := s.currentSampleBrightnessTime + (time - s.lastTimeStamp),
                           lastTimeStamp := time), [])
    // a change ends the run: its time restarts at zero, and the new brightness is remembered
    ensures isBright != s.lastSampleReadWasBright ==>
              && r.state.currentSampleBrightnessTime == 0
              && r.state.lastSampleReadWasBright == isBright
              && r.state.lastTimeStamp == time
    // start: only a run longer than the marker time followed by a bright sample
    ensures r.state.messageHasStarted <==>
              s.messageHasStarted
              || (isBright != s.lastSampleReadWasBright && isBright
                  && s.currentSampleBrightnessTime > tm.timeForStartOrEndOfTransmission)
    // nothing is recorded while no message has started
    ensures !r.state.messageHasStarted ==> r.state.readBuffer == s.readBuffer && r.state.ascii7charBuffer == s.ascii7charBuffer
    // the end of a started message is detected only at a change after a run longer than the marker time
    ensures (EndCaptureQueued in r.events) <==>
              (isBright != s.lastSampleReadWasBright && s.messageHasStarted
               && s.currentSampleBrightnessTime > tm.timeForStartOrEndOfTransmission)
  {
    var seconds := time - s.lastTimeStamp;
    var s0 := s.(lastTimeStamp := time);
    if isBright != s0.lastSampleReadWasBright then
      var run := s0.currentSampleBrightnessTime;
      var framed := FrameRun(tm, s0, run, isBright);
      var recorded: Step :=
        if framed.state.messageHasStarted then
          var s1 := framed.state.(ascii7charBuffer := framed.state.ascii7charBuffer + [DigitOf(tm, run)]);
          if |s1.ascii7charBuffer| == 7 then
            var w := EndWord(s1);
            Step(w.state, framed.events + w.events)
          else
            Step(s1, framed.events)
        else
          framed;
      Step(recorded.state.(currentSampleBrightnessTime := 0, lastSampleReadWasBright := isBright), recorded.events)
    else
      Step(s0.(currentSampleBrightnessTime := s0.currentSampleBrightnessTime + seconds), [])
  }

  /** The marker test `captureOutput` applies to a run of length `run` that a
      change of brightness ended: a longer run than the marker time ends a
      started message (flushing the waiting bits), or starts one if the new
      sample is bright; any other run leaves the message as it is. */
  function FrameRun(tm: Timing, s: ReceiverState, run: int, isBright: bool): Step
  {
    if run > tm.timeForStartOrEndOfTransmission && s.messageHasStarted then
      var w := EndWord(s);
      Step(w.state, w.events + [LogStatus(EndingMessage), EndCaptureQueued])
    else if run > tm.timeForStartOrEndOfTransmission && isBright then
      Step(s.(messageHasStarted := true), [LogStatus(StartingMessage)])
    else
      Step(s, [])
  }

  /** Between samples fewer than seven bits wait, each 0 or 1, and every flushed
      word is a '0'/'1' string of at most seven digits. */
  lemma CaptureOutputKeepsValid(tm: Timing, s: ReceiverState, time: int, isBright: bool)
    requires Valid(s)
    ensures Valid(CaptureOutput(tm, s, time, isBright).state)
  {
  }

  /** While a message is under way, every change of brightness records exactly
      one more digit for the run that ended, whether or not it completes a word
      or ends the message. */
  lemma CaptureOutputRecords(tm: Timing, s: ReceiverState, time: int, isBright: bool)
    requires isBright != s.lastSampleReadWasBright
    ensures var r := CaptureOutput(tm, s, time, isBright);
            r.state.messageHasStarted ==>
              Recorded(r.state) == Recorded(s) + [if DigitOf(tm, s.currentSampleBrightnessTime) == 1 then '1' else '0']
  {
    var run := s.currentSampleBrightnessTime;
    var s0 := s.(lastTimeStamp := time);
    var framed := FrameRun(tm, s0, run, isBright);
    EndWordKeepsRecord(s0);
    assert Recorded(framed.state) == Recorded(s);
    var s1 := framed.state.(ascii7charBuffer := framed.state.ascii7charBuffer + [DigitOf(tm, run)]);
    RecordOne(framed.state.ascii7charBuffer, framed.state.readBuffer, DigitOf(tm, run));
    EndWordKeepsRecord(s1);
  }

  /** Appending one value to the buffer appends its digit to what is recorded. */
  lemma RecordOne(buffer: seq<int>, words: seq<string>, v: int)
    ensures Concat(words) + FullWord(buffer + [v])
            == Concat(words) + FullWord(buffer) + [if v == 1 then '1' else '0']
  {
    assert FullWord(buffer + [v]) == FullWord(buffer) + [if v == 1 then '1' else '0'];
  }

  /** `endCapture` (also what `stopReceivingMessage` runs): drop the waiting bits,
      clear the clock, and hand over the flushed words.  The words handed over
      are everything recorded except the bits still waiting. */
  function EndCapture(s: ReceiverState): (r: Capture)
    ensures r.result == s.readBuffer
    ensures Concat(r.result) + FullWord(s.ascii7charBuffer) == Recorded(s)
    ensures r.state.ascii7charBuffer == [] && r.state.lastTimeStamp == 0
    ensures r.state == s.(ascii7charBuffer := [], lastTimeStamp := 0)
  {
    Capture(s.(ascii7charBuffer := [], lastTimeStamp := 0), s.readBuffer)
  }

  /** Feed a sequence of samples, one `captureOutput` call each. */
  function Receive(tm: Timing, s: ReceiverState, frames: seq<Frame>): Step
    decreases |frames|
  {
    if |frames| == 0 then Step(s, [])
    else
      var first := CaptureOutput(tm, s, frames[0].time, frames[0].bright);
      var rest := Receive(tm, first.state, frames[1..]);
      Step(rest.state, first.events + rest.events)
  }

  /** Over any sequence of samples the invariant is kept, what has been
      recorded is only ever extended, never rewritten, and a started message
      stays started. */
  lemma {:induction false} ReceiveKeepsRecord(tm: Timing, s: ReceiverState, frames: seq<Frame>)
    ensures Valid(s) ==> Valid(Receive(tm, s, frames).state)
    ensures Recorded(s) <= Recorded(Receive(tm, s, frames).state)
    ensures s.messageHasStarted ==> Receive(tm, s, frames).state.messageHasStarted
    decreases |frames|
  {
    if |frames| > 0 {
      var first := CaptureOutput(tm, s, frames[0].time, frames[0].bright);
      if Valid(s) {
        CaptureOutputKeepsValid(tm, s, frames[0].time, frames[0].bright);
      }
      if frames[0].bright != s.lastSampleReadWasBright {
        CaptureOutputRecords(tm, s, frames[0].time, frames[0].bright);
      }
      assert Recorded(s) <= Recorded(first.state);
      ReceiveKeepsRecord(tm, first.state, frames[1..]);
    }
  }

  /** The start marker run is itself recorded: when a message starts, the long
      run that started it is recorded as a 1 (the marker time is at least the
      one time). */
  lemma StartRecordsMarkerRun(tm: Timing, s: ReceiverState, time: int)
    requires tm.timeForOne <= tm.timeForStartOrEndOfTransmission
    requires !s.messageHasStarted && !s.lastSampleReadWasBright
    requires s.currentSampleBrightnessTime > tm.timeForStartOrEndOfTransmission
    ensures var r := CaptureOutput(tm, s, time, true);
            r.state.messageHasStarted && Recorded(r.state) == Recorded(s) + "1"
  {
    CaptureOutputRecords(tm, s, time, true);
  }

  /** A dark sample never starts a message, however long the bright run before it. */
  lemma DarkNeverStarts(tm: Timing, s: ReceiverState, time: int)
    requires !s.messageHasStarted
    ensures !CaptureOutput(tm, s, time, false).state.messageHasStarted
  {
  }

  /** A run of exactly the one time is recorded as 0: the test is "longer than
      the one time", so only over-long one pulses are read as 1. */
  lemma OneTimeRunRecordedAsZero(tm: Timing, s: ReceiverState, time: int, isBright: bool)
    requires s.messageHasStarted && isBright != s.lastSampleReadWasBright
    requires s.currentSampleBrightnessTime == tm.timeForOne
    ensures Recorded(CaptureOutput(tm, s, time, isBright).state) == Recorded(s) + "0"
  {
    CaptureOutputRecords(tm, s, time, isBright);
  }
}

=== FILE: inline_sampling.dfy ===
/** What the inline receiver makes of a transmission sampled by a camera
 (`Signal.Samples`).

 Once a message has started, every pulse is recorded as one digit, 1 exactly
 when the pulse is longer than the one time.  Before a message has started,
 pulses no longer than the marker time change nothing but the brightness and
 the clock.  A start needs a change to bright after a run strictly longer than
 the marker time, and every pulse of a schedule lasts at most the marker time,
 so a schedule sampled from its first instant never starts a message.  Dark
 samples taken before the transmission are another matter: after `reset` the
 clock stands at zero, so a dark lead-in whose last sample comes later than the
 marker time starts a message at the start marker's first sample.
 */
module InlineSampling {
  import opened Binary
  import opened Signal
  import opened Transmitter
  import opened InlineReceiver

  /** The digit a run of length `d` is recorded as, written out. */
  function DigitChar(tm: Timing, d: int): char
  {
    if DigitOf(tm, d) == 1 then '1' else '0'
  }

  /** The digits recorded for runs of the given lengths. */
  function RunDigits(tm: Timing, ds: seq<int>): (w: string)
    ensures |w| == |ds|
    ensures forall i :: 0 <= i < |ds| ==> w[i] in "01" && (w[i] == '1' <==> ds[i] > tm.timeForOne)
  {
    seq(|ds|, i requires 0 <= i < |ds| => DigitChar(tm, ds[i]))
  }

  /** The first run's digit, then the others'. */
  lemma RunDigitsHead(tm: Timing, ds: seq<int>)
    requires |ds| > 0
    ensures RunDigits(tm, ds) == [DigitChar(tm, ds[0])] + RunDigits(tm, ds[1..])
  {
    var w := RunDigits(tm, ds);
    var v := [DigitChar(tm, ds[0])] + RunDigits(tm, ds[1..]);
    assert |w| == |v|;
    forall i | 0 <= i < |w|
      ensures w[i] == v[i]
    {
      if i > 0 {
        assert v[i] == RunDigits(tm, ds[1..])[i - 1];
      }
    }
  }

  /** One pulse of length `d` seen at both ends: the run grows by `d`, then the
      change of brightness ends it. */
  function RunStep(tm: Timing, s: ReceiverState, d: int): Step
  {
    var t := s.lastTimeStamp + d;
    CaptureOutput(tm, s.(currentSampleBrightnessTime := s.currentSampleBrightnessTime + d, lastTimeStamp := t),
                  t, !s.lastSampleReadWasBright)
  }

  /** Runs of the given lengths, one `RunStep` each. */
  function ReceiveRuns(tm: Timing, s: ReceiverState, ds: seq<int>): Step
    decreases |ds|
  {
    if |ds| == 0 then Step(s, [])
    else
      var first := RunStep(tm, s, ds[0]);
      var rest := ReceiveRuns(tm, first.state, ds[1..]);
      Step(rest.state, first.events + rest.events)
  }

  /** Receiving one sequence of samples and then another is receiving their
      concatenation. */
  lemma {:induction false} ReceiveAppend(tm: Timing, s: ReceiverState, a: seq<Frame>, b: seq<Frame>)
    ensures var first := Receive(tm, s, a);
            var more := Receive(tm, first.state, b);
            Receive(tm, s, a + b) == Step(more.state, first.events + more.events)
    decreases |a|
  {
    if |a| == 0 {
      assert a + b == b;
    } else {
      var one := CaptureOutput(tm, s, a[0].time, a[0].bright);
      var mid := Receive(tm, one.state, a[1..]);
      var more := Receive(tm, mid.state, b);
      HeadTail(a, b);
      ReceiveAppend(tm, one.state, a[1..], b);
      ConcatAssoc(one.events, mid.events, more.events);
    }
  }

  /** `ReceiveAppend` for samples already known to be split as `a + b`. */
  lemma ReceiveSplit(tm: Timing, s: ReceiverState, a: seq<Frame>, b: seq<Frame>, frames: seq<Frame>)
    requires frames == a + b
    ensures var first := Receive(tm, s, a);
            var more := Receive(tm, first.state, b);
            Receive(tm, s, frames) == Step(more.state, first.events + more.events)
  {
    ReceiveAppend(tm, s, a, b);
  }

  /** The two samples at a pulse's end, on their own, are one `RunStep`. */
  lemma PulseEdges(tm: Timing, s: ReceiverState, d: int)
    ensures var t := s.lastTimeStamp + d;
            Receive(tm, s, [Frame(t, s.lastSampleReadWasBright), Frame(t, !s.lastSampleReadWasBright)])
            == RunStep(tm, s, d)
  {
    var t := s.lastTimeStamp + d;
    var l := s.lastSampleReadWasBright;
    var frames := [Frame(t, l), Frame(t, !l)];
    var s1 := s.(currentSampleBrightnessTime := s.currentSampleBrightnessTime + d, lastTimeStamp := t);
    var one := CaptureOutput(tm, s1, t, !l);
    assert CaptureOutput(tm, s, t, l) == Step(s1, []);
    assert frames[1..] == [Frame(t, !l)] && frames[1..][1..] == [];
    assert Receive(tm, s1, frames[1..]) == Step(one.state, one.events + []);
    assert [] + (one.events + []) == one.events;
  }

  /** The two samples at a pulse's end are one `RunStep`; whatever follows is
      received from where that step left off. */
  lemma InlinePulse(tm: Timing, s: ReceiverState, d: int, tail: seq<Frame>, frames: seq<Frame>)
    requires frames == [Frame(s.lastTimeStamp + d, s.lastSampleReadWasBright),
                        Frame(s.lastTimeStamp + d, !s.lastSampleReadWasBright)] + tail
    ensures var one := RunStep(tm, s, d);
            var more := Receive(tm, one.state, tail);
            Receive(tm, s, frames) == Step(more.state, one.events + more.events)
  {
    var t := s.lastTimeStamp + d;
    PulseEdges(tm, s, d);
    ReceiveAppend(tm, s, [Frame(t, s.lastSampleReadWasBright), Frame(t, !s.lastSampleReadWasBright)], tail);
  }

  /** The first of a train of alternating pulses is one `RunStep`; the rest of
      the train is received from where it left off, on the other level. */
  lemma FirstInlinePulse(tm: Timing, s: ReceiverState, ds: seq<int>)
    requires |ds| > 0
    ensures var l := s.lastSampleReadWasBright;
            var t := s.lastTimeStamp + ds[0];
            var one := RunStep(tm, s, ds[0]);
            var more := Receive(tm, one.state, Edges(Alternate(ds[1..], !l), t));
            && one.state.lastSampleReadWasBright == !l
            && one.state.lastTimeStamp == t
            && Receive(tm, s, Edges(Alternate(ds, l), s.lastTimeStamp)) == Step(more.state, one.events + more.events)
  {
    var l := s.lastSampleReadWasBright;
    var t := s.lastTimeStamp + ds[0];
    EdgesCons(ds, l, s.lastTimeStamp);
    InlinePulse(tm, s, ds[0], Edges(Alternate(ds[1..], !l), t), Edges(Alternate(ds, l), s.lastTimeStamp));
  }

  /** One run no longer than the marker time before a message has started:
      only the brightness and the clock move. */
  lemma IdleStep(tm: Timing, s: ReceiverState, d: int)
    requires !s.messageHasStarted && s.currentSampleBrightnessTime == 0
    requires d <= tm.timeForStartOrEndOfTransmission
    ensures RunStep(tm, s, d)
            == Step(s.(lastSampleReadWasBright := !s.lastSampleReadWasBright, lastTimeStamp := s.lastTimeStamp + d), [])
  {
  }

  /** One run no longer than the marker time while a message is under way: its
      digit is recorded, the run clock restarts, the level flips, and no end is
      detected. */
  lemma StartedStep(tm: Timing, s: ReceiverState, d: int)
    requires s.messageHasStarted && s.currentSampleBrightnessTime == 0
    requires d <= tm.timeForStartOrEndOfTransmission
    ensures var one := RunStep(tm, s, d);
            && one.state.messageHasStarted
            && one.state.currentSampleBrightnessTime == 0
            && one.state.lastSampleReadWasBright == !s.lastSampleReadWasBright
            && Recorded(one.state) == Recorded(s) + [DigitChar(tm, d)]
            && EndCaptureQueued !in one.events
  {
    var t := s.lastTimeStamp + d;
    CaptureOutputRecords(tm, s.(currentSampleBrightnessTime := s.currentSampleBrightnessTime + d, lastTimeStamp := t),
                         t, !s.lastSampleReadWasBright);
  }

  /** The samples of alternating pulses that start on the brightness last
      seen are received as the pulses' runs. */
  lemma {:induction false} EdgesAreInlineRuns(tm: Timing, s: ReceiverState, ds: seq<int>)
    ensures Receive(tm, s, Edges(Alternate(ds, s.lastSampleReadWasBright), s.lastTimeStamp)) == ReceiveRuns(tm, s, ds)
    decreases |ds|
  {
    if |ds| == 0 {
      assert Edges(Alternate(ds, s.lastSampleReadWasBright), s.lastTimeStamp) == [];
    } else {
      FirstInlinePulse(tm, s, ds);
      EdgesAreInlineRuns(tm, RunStep(tm, s, ds[0]).state, ds[1..]);
    }
  }

  /** While a message is under way, runs no longer than the marker time are
      recorded one digit each, 1 exactly when longer than the one time, no end
      is detected, and the brightness alternates. */
  lemma {:induction false} StartedRuns(tm: Timing, s: ReceiverState, ds: seq<int>)
    requires s.messageHasStarted && s.currentSampleBrightnessTime == 0
    requires forall i :: 0 <= i < |ds| ==> ds[i] <= tm.timeForStartOrEndOfTransmission
    ensures var r := ReceiveRuns(tm, s, ds);
            && r.state.messageHasStarted
            && r.state.currentSampleBrightnessTime == 0
            && r.state.lastSampleReadWasBright == LevelAfter(s.lastSampleReadWasBright, ds)
            && Recorded(r.state) == Recorded(s) + RunDigits(tm, ds)
            && EndCaptureQueued !in r.events
    decreases |ds|
  {
    if |ds| == 0 {
      assert Recorded(s) + RunDigits(tm, ds) == Recorded(s);
    } else {
      var one := RunStep(tm, s, ds[0]);
      StartedStep(tm, s, ds[0]);
      StartedRuns(tm, one.state, ds[1..]);
      RunDigitsHead(tm, ds);
      ConcatAssoc(Recorded(s), [DigitChar(tm, ds[0])], RunDigits(tm, ds[1..]));
    }
  }

  /** Before a message has started, runs no longer than the marker time change
      only the brightness and the clock, and report nothing. */
  lemma {:induction false} IdleRuns(tm: Timing, s: ReceiverState, ds: seq<int>)
    requires !s.messageHasStarted && s.currentSampleBrightnessTime == 0
    requires forall i :: 0 <= i < |ds| ==> ds[i] <= tm.timeForStartOrEndOfTransmission
    ensures var r := ReceiveRuns(tm, s, ds);
            && r.state == s.(lastSampleReadWasBright := r.state.lastSampleReadWasBright,
                             lastTimeStamp := r.state.lastTimeStamp)
            && r.state.lastSampleReadWasBright == LevelAfter(s.lastSampleReadWasBright, ds)
            && r.events == []
    decreases |ds|
  {
    if |ds| > 0 {
      IdleStep(tm, s, ds[0]);
      IdleRuns(tm, RunStep(tm, s, ds[0]).state, ds[1..]);
    }
  }

  /** Once a message is under way, the samples of alternating pulses no longer
      than the marker time are recorded one digit per pulse, and no end is
      detected. */
  lemma StartedEdges(tm: Timing, s: ReceiverState, ds: seq<int>)
    requires s.messageHasStarted && s.currentSampleBrightnessTime == 0
    requires forall i :: 0 <= i < |ds| ==> ds[i] <= tm.timeForStartOrEndOfTransmission
    ensures var r := Receive(tm, s, Edges(Alternate(ds, s.lastSampleReadWasBright), s.lastTimeStamp));
            && r.state.messageHasStarted
            && Recorded(r.state) == Recorded(s) + RunDigits(tm, ds)
            && EndCaptureQueued !in r.events
  {
    EdgesAreInlineRuns(tm, s, ds);
    StartedRuns(tm, s, ds);
  }

  /** A schedule's edge samples never start the inline receiver: every pulse
      lasts at most the marker time, and a start needs a longer run.  Nothing
      is recorded and nothing is reported. */
  lemma EdgeSamplesNeverStart(tm: Timing, words: seq<string>, time: int)
    requires 0 <= tm.timeForZero <= tm.timeForStartOrEndOfTransmission
    requires tm.timeForOne <= tm.timeForStartOrEndOfTransmission
    ensures var r := Receive(tm, ResetMessageReceiving(), EdgeSamples(Schedule(tm, words), time));
            && !r.state.messageHasStarted
            && r.state.readBuffer == [] && r.state.ascii7charBuffer == []
            && r.events == []
  {
    var ds := Durations(tm, words);
    var sched := Schedule(tm, words);
    PulseDurations(tm, words);
    assert forall i :: 0 <= i < |ds| ==> ds[i] <= tm.timeForStartOrEndOfTransmission by {
      forall i | 0 <= i < |ds|
        ensures ds[i] <= tm.timeForStartOrEndOfTransmission
      {
        assert sched[i] in sched;
      }
    }
    ScheduleAlternates(tm, words);
    var s0 := ResetMessageReceiving();
    var s1 := s0.(lastSampleReadWasBright := true, lastTimeStamp := time);
    assert CaptureOutput(tm, s0, time, true) == Step(s1, []);
    var samples := EdgeSamples(sched, time);
    assert samples == [Frame(time, true)] + Edges(sched, time);
    assert samples[0] == Frame(time, true) && samples[1..] == Edges(sched, time);
    EdgesAreInlineRuns(tm, s1, ds);
    IdleRuns(tm, s1, ds);
  }

  /** A schedule sampled by a camera from its first instant never starts the
      inline receiver, whichever level its end marker has: nothing is recorded
      and nothing is reported. */
  lemma ScheduleNeverStarts(tm: Timing, words: seq<string>, time: int)
    requires 0 <= tm.timeForZero <= tm.timeForStartOrEndOfTransmission
    requires tm.timeForOne <= tm.timeForStartOrEndOfTransmission
    ensures var r := Receive(tm, ResetMessageReceiving(), Samples(Schedule(tm, words), time));
            && !r.state.messageHasStarted
            && r.state.readBuffer == [] && r.state.ascii7charBuffer == []
            && r.events == []
  {
    var sched := Schedule(tm, words);
    var all := EdgeSamples(sched, time);
    EdgeSamplesNeverStart(tm, words, time);
    if Samples(sched, time) != all {
      ScheduleShape(tm, words);
      NeverStartsBefore(tm, all[..|all| - 1], all[|all| - 1], all);
    }
  }

  /** Whatever never starts the receiver never started it on the way: the
      samples before the last leave no message, no record and no report. */
  lemma NeverStartsBefore(tm: Timing, part: seq<Frame>, last: Frame, all: seq<Frame>)
    requires all == part + [last]
    requires var r := Receive(tm, ResetMessageReceiving(), all); !r.state.messageHasStarted && r.events == []
    ensures var r := Receive(tm, ResetMessageReceiving(), part);
            && !r.state.messageHasStarted
            && r.state.readBuffer == [] && r.state.ascii7charBuffer == []
            && r.events == []
  {
    var s0 := ResetMessageReceiving();
    var first := Receive(tm, s0, part);
    ReceiveAppend(tm, s0, part, [last]);
    ReceiveKeepsRecord(tm, s0, part);
    ReceiveKeepsRecord(tm, first.state, [last]);
    assert |first.events| == 0;
  }

  /** Samples of the brightness already seen only add their gaps to the run
      and move the clock to the last of them; nothing is reported. */
  lemma {:induction false} SameLevel(tm: Timing, s: ReceiverState, frames: seq<Frame>)
    requires |frames| >= 1
    requires forall i :: 0 <= i < |frames| ==> frames[i].bright == s.lastSampleReadWasBright
    ensures var t := frames[|frames| - 1].time;
            Receive(tm, s, frames)
            == Step(s.(currentSampleBrightnessTime := s.currentSampleBrightnessTime + (t - s.lastTimeStamp),
                       lastTimeStamp := t), [])
    decreases |frames|
  {
    var f := frames[0];
    var s1 := s.(currentSampleBrightnessTime := s.currentSampleBrightnessTime + (f.time - s.lastTimeStamp),
                 lastTimeStamp := f.time);
    assert CaptureOutput(tm, s, f.time, f.bright) == Step(s1, []);
    if |frames| == 1 {
      assert frames[1..] == [];
    } else {
      SameLevel(tm, s1, frames[1..]);
    }
  }

  /** A dark lead-in whose last sample comes later than the marker time after
      `reset` starts a message at the start marker's first, bright sample, and
      the lead-in run is recorded as a 1; the start marker's own edges then
      record a second 1.  The receiver is two digits out of step before the
      first digit of the message arrives. */
  lemma LeadInStartsInline(tm: Timing, lead: seq<Frame>, time: int, frames: seq<Frame>)
    requires tm.timeForOne < tm.timeForStartOrEndOfTransmission
    requires |lead| >= 1
    requires forall i :: 0 <= i < |lead| ==> !lead[i].bright
    requires lead[|lead| - 1].time > tm.timeForStartOrEndOfTransmission
    requires var t1 := time + tm.timeForStartOrEndOfTransmission;
             frames == lead + ([Frame(time, true)] + [Frame(t1, true), Frame(t1, false)])
    ensures var r := Receive(tm, ResetMessageReceiving(), frames);
            && r.events == [LogStatus(StartingMessage)]
            && r.state.messageHasStarted
            && Recorded(r.state) == "11"
  {
    var t1 := time + tm.timeForStartOrEndOfTransmission;
    var s0 := ResetMessageReceiving();
    var last := lead[|lead| - 1].time;
    var sL := s0.(currentSampleBrightnessTime := last, lastTimeStamp := last);
    var rest := [Frame(time, true)] + [Frame(t1, true), Frame(t1, false)];
    assert Receive(tm, s0, lead) == Step(sL, []) by {
      SameLevel(tm, s0, lead);
    }
    OpeningAfterLeadIn(tm, sL, time, rest);
    ReceiveSplit(tm, s0, lead, rest, frames);
    assert FullWord([1, 1]) == "11";
  }

  /** After a dark lead-in longer than the marker time, the opening starts a
      message and records two 1s: one for the lead-in, one for the marker. */
  lemma OpeningAfterLeadIn(tm: Timing, s: ReceiverState, time: int, frames: seq<Frame>)
    requires tm.timeForOne < tm.timeForStartOrEndOfTransmission
    requires !s.messageHasStarted && !s.lastSampleReadWasBright && s.readBuffer == [] && s.ascii7charBuffer == []
    requires s.currentSampleBrightnessTime > tm.timeForStartOrEndOfTransmission
    requires var t1 := time + tm.timeForStartOrEndOfTransmission;
             frames == [Frame(time, true)] + [Frame(t1, true), Frame(t1, false)]
    ensures Receive(tm, s, frames)
            == Step(ReceiverState(false, 0, [], [1, 1], time + tm.timeForStartOrEndOfTransmission, true),
                    [LogStatus(StartingMessage)])
  {
    var t1 := time + tm.timeForStartOrEndOfTransmission;
    InlineStart(tm, s, time);
    MarkerEdgesRecorded(tm, time);
    ReceiveSplit(tm, s, [Frame(time, true)], [Frame(t1, true), Frame(t1, false)], frames);
  }

  /** After a dark run longer than the marker time with nothing recorded, a
      bright sample starts a message and records the run as a 1. */
  lemma InlineStart(tm: Timing, s: ReceiverState, time: int)
    requires tm.timeForOne < tm.timeForStartOrEndOfTransmission
    requires !s.messageHasStarted && !s.lastSampleReadWasBright && s.readBuffer == [] && s.ascii7charBuffer == []
    requires s.currentSampleBrightnessTime > tm.timeForStartOrEndOfTransmission
    ensures Receive(tm, s, [Frame(time, true)])
            == Step(ReceiverState(true, 0, [], [1], time, true), [LogStatus(StartingMessage)])
  {
    assert CaptureOutput(tm, s, time, true) == Step(ReceiverState(true, 0, [], [1], time, true), [LogStatus(StartingMessage)]);
    assert [Frame(time, true)][1..] == [];
  }

  /** A started message's marker pulse, seen at both ends, is recorded as one
      more 1 and does not end the message. */
  lemma MarkerEdgesRecorded(tm: Timing, time: int)
    requires tm.timeForOne < tm.timeForStartOrEndOfTransmission
    ensures var t1 := time + tm.timeForStartOrEndOfTransmission;
            Receive(tm, ReceiverState(true, 0, [], [1], time, true), [Frame(t1, true), Frame(t1, false)])
            == Step(ReceiverState(false, 0, [], [1, 1], t1, true), [])
  {
    var mark := tm.timeForStartOrEndOfTransmission;
    var t1 := time + mark;
    var sS := ReceiverState(true, 0, [], [1], time, true);
    PulseEdges(tm, sS, mark);
    assert CaptureOutput(tm, sS.(currentSampleBrightnessTime := mark, lastTimeStamp := t1), t1, false)
           == Step(ReceiverState(false, 0, [], [1, 1], t1, true), []);
  }

  /** With `FlashControl`'s own timing the "aZ" schedule, sampled exactly, leaves
      the inline receiver without a started message and without a word. */
  lemma AZNeverStarts(time: int)
    ensures var r := Receive(FlashTiming, ResetMessageReceiving(), Samples(Schedule(FlashTiming, AZ), time));
            !r.state.messageHasStarted && r.state.readBuffer == [] && r.events == []
  {
    ScheduleNeverStarts(FlashTiming, AZ, time);
  }
}

=== FILE: round_trip.dfy ===
/** What the decoder makes of what the sender sends.

 The sender's pulse schedule is turned into brightness samples in two ways.
 `EdgeSamples` sees every pulse at the instant it begins and at the instant it
 ends: a pulse of length d begun at time t is seen as a sample at t and one at
 t + d, and the next pulse's first sample shares the time t + d.  `Samples` is
 a camera watching the torch, which is off once the schedule is over: after a
 dark end marker it sees no change, so that marker's run is never measured.
 Both start with the start marker's first instant; nothing is seen before it.

 Under thresholds that keep the three pulse lengths apart and the intended
 `binary_decimal`, the edges of a message of seven-digit words come back whole,
 in one `CAPTURE_RESULT`, and the decoder ends where `reset()` leaves it.  A
 camera sees the same when the number of words is odd.  When it is even the
 end marker is dark and the message is reported character by character but
 never captured; a closing flash after a dark end marker repairs that.  A dark
 lead-in before the start marker is read as a marker or as a stray bit.
 */
module RoundTrip {
  import opened Binary
  import opened Signal
  import opened Transmitter
  import opened Decoder

  /** The decoder shares the sender's zero and marker times, and its margin keeps
      the classes apart: zero < zero + margin <= one < marker - margin < marker. */
  predicate Separated(cfg: Config, tm: Timing)
  {
    && cfg.timeForZero == tm.timeForZero
    && cfg.timeForStartOrEndOfTransmission == tm.timeForStartOrEndOfTransmission
    && 0 < tm.timeForZero < tm.timeForZero + cfg.errorMarginTime <= tm.timeForOne
    && tm.timeForOne < tm.timeForStartOrEndOfTransmission - cfg.errorMarginTime
    && tm.timeForStartOrEndOfTransmission - cfg.errorMarginTime < tm.timeForStartOrEndOfTransmission
  }

  /** Every word is seven digits long, one character's worth. */
  predicate SevenDigitWords(words: seq<string>)
  {
    forall k :: 0 <= k < |words| ==> |words[k]| == 7
  }

  /** The characters a message of words stands for: each word's digits read
      most significant first. */
  function Decoded(words: seq<string>): (text: string)
    ensures |text| == |words|
  {
    if |words| == 0 then "" else [CharOf(MsbValue(Bits(words[0])))] + Decoded(words[1..])
  }

  /** The "Received:" status reports while `chars` are added to `done`. */
  function Progress(done: string, chars: string): seq<Event>
    decreases |chars|
  {
    if |chars| == 0 then []
    else [Status(ReceivedPrefix + done + [chars[0]])] + Progress(done + [chars[0]], chars[1..])
  }

  /** Everything the decoder reports for one framed message. */
  function Reports(text: string): seq<Event>
  {
    [Status(BeginningOfMessage)] + (Progress("", text) + [CaptureResult(text)])
  }

  /** Under separated thresholds a digit's pulse is never a marker, is positive,
      and is read back as the digit; a marker pulse is a marker. */
  lemma Classification(cfg: Config, tm: Timing, digit: char)
    requires Separated(cfg, tm)
    ensures DigitDuration(tm, digit) > 0 && !IsMarker(cfg, DigitDuration(tm, digit))
    ensures BitOf(cfg, DigitDuration(tm, digit)) <==> digit == '1'
    ensures tm.timeForStartOrEndOfTransmission > 0 && IsMarker(cfg, tm.timeForStartOrEndOfTransmission)
  {
  }

  /** The digit pulses of a word are read back as the word's bits. */
  lemma ClassifyWord(cfg: Config, tm: Timing, word: string)
    requires Separated(cfg, tm)
    ensures BitsOf(cfg, DigitDurations(tm, word)) == Bits(word)
    ensures forall i :: 0 <= i < |word| ==> !IsMarker(cfg, DigitDurations(tm, word)[i])
  {
    forall i | 0 <= i < |word|
      ensures BitsOf(cfg, DigitDurations(tm, word))[i] == Bits(word)[i]
      ensures !IsMarker(cfg, DigitDurations(tm, word)[i])
    {
      Classification(cfg, tm, word[i]);
    }
  }

  /** Run level: the digit runs of seven-digit words, fed to `addBit` from an
      empty group, append the words' characters to the message one by one and
      report the message after each. */
  lemma {:induction false} WordsDecode(cfg: Config, tm: Timing, m: MessageState, words: seq<string>)
    requires Separated(cfg, tm) && MsbFirst(cfg) && SevenDigitWords(words)
    requires m.bitsBuffer == []
    ensures FeedRuns(cfg, m, DigitDurations(tm, Concat(words)))
            == Trace(m.(message := m.message + Decoded(words)), Progress(m.message, Decoded(words)))
    decreases |words|
  {
    if |words| == 0 {
      assert m.message + "" == m.message;
      assert m.(message := m.message) == m;
    } else {
      var c := CharOf(MsbValue(Bits(words[0])));
      var m1 := m.(message := m.message + [c]);
      var tail := Decoded(words[1..]);
      DurationsOfWords(tm, words);
      FirstWord(cfg, tm, m, words[0]);
      WordsDecode(cfg, tm, m1, words[1..]);
      FeedRunsAppend(cfg, m, DigitDurations(tm, words[0]), DigitDurations(tm, Concat(words[1..])));
      ProgressCons(m.message, c, tail);
      ConcatAssoc(m.message, [c], tail);
    }
  }

  /** The digit runs of a message are the first word's, then the rest's. */
  lemma DurationsOfWords(tm: Timing, words: seq<string>)
    requires |words| > 0
    ensures DigitDurations(tm, Concat(words)) == DigitDurations(tm, words[0]) + DigitDurations(tm, Concat(words[1..]))
  {
    assert Concat(words) == words[0] + Concat(words[1..]);
  }

  /** The seven digit runs of one word add its character. */
  lemma FirstWord(cfg: Config, tm: Timing, m: MessageState, w: string)
    requires Separated(cfg, tm) && MsbFirst(cfg) && |w| == 7 && m.bitsBuffer == []
    ensures var message := m.message + [CharOf(MsbValue(Bits(w)))];
            FeedRuns(cfg, m, DigitDurations(tm, w)) == Trace(m.(message := message), [Status(ReceivedPrefix + message)])
  {
    ClassifyWord(cfg, tm, w);
    WordOfSevenRuns(cfg, m, DigitDurations(tm, w));
  }

  /** One more character: its report, then the rest from the longer message. */
  lemma ProgressCons(done: string, c: char, tail: string)
    ensures Progress(done, [c] + tail) == [Status(ReceivedPrefix + (done + [c]))] + Progress(done + [c], tail)
  {
    var chars := [c] + tail;
    assert chars[0] == c && chars[1..] == tail;
    assert ReceivedPrefix + done + [c] == ReceivedPrefix + (done + [c]);
  }

  /** Run level round trip: the run lengths of a message of seven-digit words,
      fed to `addBit` from the reset state, report the beginning, every
      character as it arrives, and finally the whole message, and leave the
      decoder reset. */
  lemma RunsRoundTrip(cfg: Config, tm: Timing, words: seq<string>)
    requires Separated(cfg, tm) && MsbFirst(cfg) && SevenDigitWords(words)
    ensures FeedRuns(cfg, Reset().assembly, Durations(tm, words))
            == Trace(Reset().assembly, Reports(Decoded(words)))
  {
    var mark := tm.timeForStartOrEndOfTransmission;
    var ds := DigitDurations(tm, Concat(words));
    assert Durations(tm, words) == [mark] + (ds + [mark]);
    var idle := Reset().assembly;
    var text := Decoded(words);
    var started := MessageState([], true, "");
    MarkerRuns(cfg, tm, text);
    assert FeedRuns(cfg, started, ds) == Trace(MessageState([], true, text), Progress("", text)) by {
      WordsDecode(cfg, tm, started, words);
    }
    FeedRunsAppend(cfg, started, ds, [mark]);
    FeedRunsAppend(cfg, idle, [mark], ds + [mark]);
  }

  /** A marker run from the reset state begins a message; a marker run in a
      message reports it and resets. */
  lemma MarkerRuns(cfg: Config, tm: Timing, text: string)
    requires Separated(cfg, tm)
    ensures var mark := tm.timeForStartOrEndOfTransmission;
            && FeedRuns(cfg, Reset().assembly, [mark]) == Trace(MessageState([], true, ""), [Status(BeginningOfMessage)])
            && FeedRuns(cfg, MessageState([], true, text), [mark]) == Trace(Reset().assembly, [CaptureResult(text)])
  {
    Classification(cfg, tm, '1');
  }

  // ---------------------------------------------------------------------------
  // Sampling the schedule

  /** One pulse of positive length, sampled at both ends, ends its run with
      exactly its length measured. */
  lemma OnePulse(cfg: Config, s: State, d: int)
    requires s.capturedFrames == [] && s.lastTimeStamp > 0 && d > 0
    ensures var l := s.lastSampleReadWasBright;
            var t := s.lastTimeStamp + d;
            Feed(cfg, s, [Frame(t, l), Frame(t, !l)]) == EndRun(cfg, s.(lastTimeStamp := t), d, !l)
  {
    var l := s.lastSampleReadWasBright;
    var t := s.lastTimeStamp + d;
    var s1 := s.(capturedFrames := [Frame(t, l)]);
    var r := AddFrame(cfg, s1, t, !l);
    assert r == EndRun(cfg, s.(lastTimeStamp := t), d, !l) by {
      RunDuration(cfg, s1, t, !l);
      assert RunLength(s.lastTimeStamp, s1.capturedFrames) == d;
      assert s1.(lastTimeStamp := t, capturedFrames := []) == s.(lastTimeStamp := t);
    }
    assert AddFrame(cfg, s, t, l) == Step(s1, []);
    FeedCons(cfg, s, Frame(t, l), [Frame(t, !l)], [Frame(t, l), Frame(t, !l)]);
    FeedOne(cfg, s1, Frame(t, !l));
    assert [] + r.events == r.events;
  }

  /** A marker pulse sampled at both ends starts a message, or ends the current
      one and leaves the decoder reset. */
  lemma MarkerPulse(cfg: Config, s: State, d: int)
    requires s.capturedFrames == [] && s.lastTimeStamp > 0 && d > 0 && IsMarker(cfg, d)
    ensures var l := s.lastSampleReadWasBright;
            var t := s.lastTimeStamp + d;
            Feed(cfg, s, [Frame(t, l), Frame(t, !l)])
            == if s.assembly.inMessage then Step(Reset(), [CaptureResult(s.assembly.message)])
               else Step(State(!l, t, [], s.assembly.(inMessage := true)), [Status(BeginningOfMessage)])
  {
    var l := s.lastSampleReadWasBright;
    var t := s.lastTimeStamp + d;
    OnePulse(cfg, s, d);
    var bit := AddBit(cfg, s.assembly, d);
    assert RunBit(cfg, s.assembly, d) == bit;
    if !s.assembly.inMessage {
      assert s.(lastTimeStamp := t).(assembly := bit.assembly, lastSampleReadWasBright := !l)
             == State(!l, t, [], s.assembly.(inMessage := true));
    }
  }

  /** Run segmentation on a sampled schedule: alternating pulses of positive,
      non-marker lengths starting on the level being measured are decoded
      exactly as if their lengths were handed to `addBit` directly. */
  lemma {:induction false} EdgesAreRuns(cfg: Config, s: State, durations: seq<int>)
    requires s.capturedFrames == [] && s.lastTimeStamp > 0
    requires forall i :: 0 <= i < |durations| ==> durations[i] > 0 && !IsMarker(cfg, durations[i])
    ensures var runs := FeedRuns(cfg, s.assembly, durations);
            Feed(cfg, s, Edges(Alternate(durations, s.lastSampleReadWasBright), s.lastTimeStamp))
            == Step(State(LevelAfter(s.lastSampleReadWasBright, durations),
                          s.lastTimeStamp + Span(Alternate(durations, s.lastSampleReadWasBright)), [], runs.assembly),
                    runs.events)
    decreases |durations|
  {
    var l := s.lastSampleReadWasBright;
    if |durations| == 0 {
      assert s == State(l, s.lastTimeStamp, [], s.assembly);
    } else {
      var t := s.lastTimeStamp + durations[0];
      var bit := AddBit(cfg, s.assembly, durations[0]);
      EdgesCons(durations, l, s.lastTimeStamp);
      PulseThen(cfg, s, durations[0], Edges(Alternate(durations[1..], !l), t),
                Edges(Alternate(durations, l), s.lastTimeStamp));
      EdgesAreRuns(cfg, State(!l, t, [], bit.assembly), durations[1..]);
      RunsCons(cfg, s.assembly, durations);
    }
  }

  /** A non-marker pulse sampled at both ends hands its length to `addBit`;
      whatever follows is fed from where that left off. */
  lemma PulseThen(cfg: Config, s: State, d: int, tail: seq<Frame>, frames: seq<Frame>)
    requires s.capturedFrames == [] && s.lastTimeStamp > 0 && d > 0 && !IsMarker(cfg, d)
    requires frames == [Frame(s.lastTimeStamp + d, s.lastSampleReadWasBright),
                        Frame(s.lastTimeStamp + d, !s.lastSampleReadWasBright)] + tail
    ensures var bit := AddBit(cfg, s.assembly, d);
            var more := Feed(cfg, State(!s.lastSampleReadWasBright, s.lastTimeStamp + d, [], bit.assembly), tail);
            Feed(cfg, s, frames) == Step(more.state, bit.events + more.events)
  {
    var l := s.lastSampleReadWasBright;
    var t := s.lastTimeStamp + d;
    var chunk := [Frame(t, l), Frame(t, !l)];
    var bit := AddBit(cfg, s.assembly, d);
    assert !bit.resetQueued;
    assert Feed(cfg, s, chunk) == Step(State(!l, t, [], bit.assembly), bit.events) by {
      OnePulse(cfg, s, d);
    }
    FeedAppend(cfg, s, chunk, tail);
  }

  /** The first sample and the start marker's two edges. */
  function OpeningFrames(tm: Timing, time: int): seq<Frame>
  {
    var t1 := time + tm.timeForStartOrEndOfTransmission;
    [Frame(time, true), Frame(t1, true), Frame(t1, false)]
  }

  /** The digits' edges from `t1` on, then the end marker's two edges. */
  function BodyFrames(tm: Timing, words: seq<string>, t1: int): seq<Frame>
  {
    var ds := DigitDurations(tm, Concat(words));
    var t2 := t1 + Span(Alternate(ds, false));
    var lastLight := |ds| % 2 == 1;
    Edges(Alternate(ds, false), t1)
      + [Frame(t2 + tm.timeForStartOrEndOfTransmission, lastLight),
         Frame(t2 + tm.timeForStartOrEndOfTransmission, !lastLight)]
  }

  /** A schedule's edge samples in two parts: the opening, and the body after the
      start marker. */
  lemma ScheduleSamples(tm: Timing, words: seq<string>, time: int)
    ensures EdgeSamples(Schedule(tm, words), time)
            == OpeningFrames(tm, time) + BodyFrames(tm, words, time + tm.timeForStartOrEndOfTransmission)
  {
    var mark := tm.timeForStartOrEndOfTransmission;
    var ds := DigitDurations(tm, Concat(words));
    var lastLight := |ds| % 2 == 1;
    var dataPulses := Alternate(ds, false);
    assert Schedule(tm, words) == [Pulse(mark, true)] + (dataPulses + [Pulse(mark, lastLight)]) by {
      ScheduleSplit(tm, words);
      AlternateOne(mark, true);
      AlternateOne(mark, lastLight);
    }
    Framed(mark, true, dataPulses, lastLight, time);
  }

  /** The digits of a started message, sampled, are decoded into its text. */
  lemma DataSegment(cfg: Config, tm: Timing, words: seq<string>, t1: int)
    requires Separated(cfg, tm) && MsbFirst(cfg) && SevenDigitWords(words)
    requires t1 > 0
    ensures var ds := DigitDurations(tm, Concat(words));
            var text := Decoded(words);
            && Span(Alternate(ds, false)) >= 0
            && Feed(cfg, State(false, t1, [], MessageState([], true, "")), Edges(Alternate(ds, false), t1))
               == Step(State(|ds| % 2 == 1, t1 + Span(Alternate(ds, false)), [], MessageState([], true, text)),
                       Progress("", text))
  {
    var digits := Concat(words);
    var ds := DigitDurations(tm, digits);
    var text := Decoded(words);
    var started := MessageState([], true, "");
    assert FeedRuns(cfg, started, ds) == Trace(MessageState([], true, text), Progress("", text)) by {
      WordsDecode(cfg, tm, started, words);
      assert started.message + text == text;
    }
    DigitRuns(cfg, tm, digits);
    EdgesAreRuns(cfg, State(false, t1, [], started), ds);
    LevelAfterParity(false, ds);
    SpanPositive(Alternate(ds, false));
  }

  /** The round trip when the level changes after the end marker: the edge
      samples of the schedule of a message of seven-digit words, fed to a reset
      decoder, report the beginning of the message, each character as it is
      completed, and then the whole message in one `CAPTURE_RESULT`; afterwards
      every field is back at its reset value. */
  lemma EdgesRoundTrip(cfg: Config, tm: Timing, words: seq<string>, time: int)
    requires Separated(cfg, tm) && MsbFirst(cfg) && SevenDigitWords(words)
    requires time > 0
    ensures Feed(cfg, Reset(), EdgeSamples(Schedule(tm, words), time)) == Step(Reset(), Reports(Decoded(words)))
  {
    ScheduleSamples(tm, words, time);
    PartsRoundTrip(cfg, tm, words, time);
  }

  /** A message of seven-digit words has seven digits per word, so its digit
      count is even exactly when its word count is. */
  lemma {:induction false} SevenDigitParity(words: seq<string>)
    requires SevenDigitWords(words)
    ensures |Concat(words)| == 7 * |words|
    ensures |Concat(words)| % 2 == |words| % 2
    decreases |words|
  {
    if |words| > 0 {
      assert SevenDigitWords(words[1..]) by {
        forall k | 0 <= k < |words[1..]|
          ensures |words[1..][k]| == 7
        {
          assert words[1..][k] == words[k + 1];
        }
      }
      SevenDigitParity(words[1..]);
      assert |Concat(words)| == 7 + |Concat(words[1..])|;
    }
  }

  /** The round trip as a camera sees it, for an odd number of words: the end
      marker is light, the torch going off after it ends its run, and the
      message comes back whole in one `CAPTURE_RESULT`, leaving the decoder
      reset. */
  lemma SamplesRoundTrip(cfg: Config, tm: Timing, words: seq<string>, time: int)
    requires Separated(cfg, tm) && MsbFirst(cfg) && SevenDigitWords(words)
    requires |words| % 2 == 1 && time > 0
    ensures Feed(cfg, Reset(), Samples(Schedule(tm, words), time)) == Step(Reset(), Reports(Decoded(words)))
  {
    SevenDigitParity(words);
    ScheduleAlternates(tm, words);
    ScheduleShape(tm, words);
    EdgesRoundTrip(cfg, tm, words, time);
  }

  /** The same for an even number of words, as written: the end marker is dark,
      the torch stays off after it, and its run is never ended.  Every character
      is reported in a "Received:" status, but no `CAPTURE_RESULT` is ever
      posted: the decoder is left inside the message, with the text gathered. */
  lemma EvenWordsNeverEnd(cfg: Config, tm: Timing, words: seq<string>, time: int)
    requires Separated(cfg, tm) && MsbFirst(cfg) && SevenDigitWords(words)
    requires |words| % 2 == 0 && time > 0
    ensures var r := Feed(cfg, Reset(), Samples(Schedule(tm, words), time));
            && r.events == [Status(BeginningOfMessage)] + Progress("", Decoded(words))
            && (forall i :: 0 <= i < |r.events| ==> r.events[i].Status?)
            && r.state.assembly == MessageState([], true, Decoded(words))
  {
    DarkEndSamples(tm, words, time);
    EvenWordsFeed(cfg, tm, words, time);
    ProgressStatuses("", Decoded(words));
  }

  /** The opening begins the message, and the rest reports the text without
      ending it. */
  lemma EvenWordsFeed(cfg: Config, tm: Timing, words: seq<string>, time: int)
    requires Separated(cfg, tm) && MsbFirst(cfg) && SevenDigitWords(words)
    requires |words| % 2 == 0 && time > 0
    ensures var t1 := time + tm.timeForStartOrEndOfTransmission;
            var r := Feed(cfg, Reset(), OpeningFrames(tm, time) + DarkEndFrames(tm, words, t1));
            && r.events == [Status(BeginningOfMessage)] + Progress("", Decoded(words))
            && r.state.assembly == MessageState([], true, Decoded(words))
  {
    var t1 := time + tm.timeForStartOrEndOfTransmission;
    Opening(cfg, tm, time);
    DarkEndBody(cfg, tm, words, t1);
    FeedAppend(cfg, Reset(), OpeningFrames(tm, time), DarkEndFrames(tm, words, t1));
  }

  /** The digits' edges from `t1` on, then the dark end marker's one sample. */
  function DarkEndFrames(tm: Timing, words: seq<string>, t1: int): seq<Frame>
  {
    var ds := DigitDurations(tm, Concat(words));
    var t2 := t1 + Span(Alternate(ds, false));
    Edges(Alternate(ds, false), t1) + [Frame(t2 + tm.timeForStartOrEndOfTransmission, false)]
  }

  /** An even number of seven-digit words is seen as the opening, the digits'
      edges, and the end marker's one dark sample. */
  lemma DarkEndSamples(tm: Timing, words: seq<string>, time: int)
    requires SevenDigitWords(words) && |words| % 2 == 0
    ensures Samples(Schedule(tm, words), time)
            == OpeningFrames(tm, time) + DarkEndFrames(tm, words, time + tm.timeForStartOrEndOfTransmission)
  {
    var mark := tm.timeForStartOrEndOfTransmission;
    var t1 := time + mark;
    var ds := DigitDurations(tm, Concat(words));
    var t3 := t1 + Span(Alternate(ds, false)) + mark;
    var e1 := Edges(Alternate(ds, false), t1);
    SevenDigitParity(words);
    ScheduleAlternates(tm, words);
    ScheduleShape(tm, words);
    ScheduleSamples(tm, words, time);
    var opening := OpeningFrames(tm, time);
    var all := opening + (e1 + [Frame(t3, false), Frame(t3, true)]);
    assert EdgeSamples(Schedule(tm, words), time) == all;
    assert all[..|all| - 1] == opening + (e1 + [Frame(t3, false)]);
  }

  /** In a started message the digits' edges report the text, and the dark end
      marker's sample only joins the queue. */
  lemma DarkEndBody(cfg: Config, tm: Timing, words: seq<string>, t1: int)
    requires Separated(cfg, tm) && MsbFirst(cfg) && SevenDigitWords(words)
    requires |words| % 2 == 0 && t1 > 0
    ensures var r := Feed(cfg, State(false, t1, [], MessageState([], true, "")), DarkEndFrames(tm, words, t1));
            r.events == Progress("", Decoded(words)) && r.state.assembly == MessageState([], true, Decoded(words))
  {
    var ds := DigitDurations(tm, Concat(words));
    var t2 := t1 + Span(Alternate(ds, false));
    var before := Step(State(false, t2, [], MessageState([], true, Decoded(words))), Progress("", Decoded(words)));
    EvenDataSegment(cfg, tm, words, t1);
    FeedQuietLast(cfg, State(false, t1, [], MessageState([], true, "")), Edges(Alternate(ds, false), t1),
                  Frame(t2 + tm.timeForStartOrEndOfTransmission, false), DarkEndFrames(tm, words, t1), before);
  }

  /** An even number of seven-digit words leaves the light off after its last
      digit, with the text gathered. */
  lemma EvenDataSegment(cfg: Config, tm: Timing, words: seq<string>, t1: int)
    requires Separated(cfg, tm) && MsbFirst(cfg) && SevenDigitWords(words)
    requires |words| % 2 == 0 && t1 > 0
    ensures var ds := DigitDurations(tm, Concat(words));
            Feed(cfg, State(false, t1, [], MessageState([], true, "")), Edges(Alternate(ds, false), t1))
            == Step(State(false, t1 + Span(Alternate(ds, false)), [], MessageState([], true, Decoded(words))),
                    Progress("", Decoded(words)))
  {
    SevenDigitParity(words);
    DataSegment(cfg, tm, words, t1);
  }

  /** "Received:" reports are status text, one per character. */
  lemma {:induction false} ProgressStatuses(done: string, chars: string)
    ensures |Progress(done, chars)| == |chars|
    ensures forall i :: 0 <= i < |Progress(done, chars)| ==> Progress(done, chars)[i].Status?
    decreases |chars|
  {
    if |chars| > 0 {
      ProgressStatuses(done + [chars[0]], chars[1..]);
    }
  }

  /** A closing flash seen at both ends by a reset decoder only moves its clock:
      the first bright sample starts timing, and a run of one instant is
      ignored. */
  lemma ClosingFlash(cfg: Config, t: int)
    ensures Feed(cfg, Reset(), [Frame(t, true), Frame(t, false)]) == Step(Reset().(lastTimeStamp := t), [])
  {
    var s0 := Reset().(lastTimeStamp := t, lastSampleReadWasBright := true);
    var frames := [Frame(t, true), Frame(t, false)];
    FirstSampleAfterReset(cfg, t, true);
    ShortRunIgnored(cfg, s0, t, false);
    assert s0.(lastTimeStamp := t, capturedFrames := [], lastSampleReadWasBright := false) == Reset().(lastTimeStamp := t);
    assert frames[1..] == [Frame(t, false)] && frames[1..][1..] == [];
    assert Feed(cfg, s0, frames[1..]) == Step(Reset().(lastTimeStamp := t), []);
  }

  /** A camera frame taken inside the closing flash.  The end marker's reset
      has already been applied, so the frame only starts the clock, and the
      flash is measured from it to the flash's end.  That run is shorter than
      the zero time, so it is a 0 bit, gathered while no message is under way. */
  lemma FlashSampledInside(cfg: Config, tm: Timing, mid: int, t4: int)
    requires Separated(cfg, tm) && 0 < mid < t4 && t4 - mid < tm.timeForZero
    ensures Feed(cfg, Reset(), [Frame(mid, true), Frame(t4, true), Frame(t4, false)])
            == Step(State(false, t4, [], MessageState([false], false, "")), [])
  {
    var s1 := Reset().(lastTimeStamp := mid, lastSampleReadWasBright := true);
    var s2 := s1.(capturedFrames := [Frame(t4, true)]);
    FirstSampleAfterReset(cfg, mid, true);
    assert AddFrame(cfg, s1, t4, true) == Step(s2, []);
    assert AddFrame(cfg, s2, t4, false) == Step(State(false, t4, [], MessageState([false], false, "")), []) by {
      RunDuration(cfg, s2, t4, false);
      assert RunLength(mid, s2.capturedFrames) == t4 - mid;
      PartialStep(cfg, s2.assembly, t4 - mid);
    }
    FeedOne(cfg, s2, Frame(t4, false));
    FeedCons(cfg, s1, Frame(t4, true), [Frame(t4, false)], [Frame(t4, true), Frame(t4, false)]);
    FeedCons(cfg, Reset(), Frame(mid, true), [Frame(t4, true), Frame(t4, false)],
             [Frame(mid, true), Frame(t4, true), Frame(t4, false)]);
  }

  /** Under separated thresholds every pulse lasts a positive time, so a
      schedule takes at least one tick per pulse. */
  lemma ScheduleLasts(cfg: Config, tm: Timing, words: seq<string>)
    requires Separated(cfg, tm)
    ensures Span(Schedule(tm, words)) >= |Schedule(tm, words)|
  {
    var sched := Schedule(tm, words);
    PulseDurations(tm, words);
    assert forall i :: 0 <= i < |sched| ==> sched[i].duration > 0 by {
      forall i | 0 <= i < |sched|
        ensures sched[i].duration > 0
      {
        assert sched[i] in sched;
      }
    }
    SpanPositive(sched);
  }

  /** The corrected round trip with one more camera frame inside the closing
      flash: the message still comes back whole in one `CAPTURE_RESULT`, but
      the flash then leaves a stray 0 bit, outside any message, that the next
      message's start marker does not clear. */
  lemma ClosedRoundTripSampledInside(cfg: Config, tm: Timing, words: seq<string>, time: int, mid: int)
    requires Separated(cfg, tm) && MsbFirst(cfg) && SevenDigitWords(words)
    requires time > 0
    requires var t3 := time + Span(Schedule(tm, words)); t3 < mid < t3 + tm.timeForZero
    ensures var t4 := time + Span(Schedule(tm, words)) + tm.timeForZero;
            var r := Feed(cfg, Reset(), EdgeSamples(Schedule(tm, words), time)
                                        + [Frame(mid, true), Frame(t4, true), Frame(t4, false)]);
            && r.events == Reports(Decoded(words))
            && r.state.assembly == MessageState([false], false, "")
  {
    var t4 := time + Span(Schedule(tm, words)) + tm.timeForZero;
    var flash := [Frame(mid, true), Frame(t4, true), Frame(t4, false)];
    EdgesRoundTrip(cfg, tm, words, time);
    ScheduleLasts(cfg, tm, words);
    FlashSampledInside(cfg, tm, mid, t4);
    FeedAppend(cfg, Reset(), EdgeSamples(Schedule(tm, words), time), flash);
    assert Reports(Decoded(words)) + [] == Reports(Decoded(words));
  }

  /** The corrected round trip: with the closing flash, every message of
      seven-digit words, whatever their number, comes back whole in one
      `CAPTURE_RESULT`.  With the flash seen only at its start and end, the
      decoder is left reset except for its clock; a frame inside the flash
      leaves a stray bit instead (`ClosedRoundTripSampledInside`). */
  lemma ClosedRoundTrip(cfg: Config, tm: Timing, words: seq<string>, time: int)
    requires Separated(cfg, tm) && MsbFirst(cfg) && SevenDigitWords(words)
    requires time > 0
    ensures var r := Feed(cfg, Reset(), Samples(ClosedSchedule(tm, words), time));
            && r.events == Reports(Decoded(words))
            && r.state == Reset().(lastTimeStamp := r.state.lastTimeStamp)
  {
    var sch := Schedule(tm, words);
    var closed := ClosedSchedule(tm, words);
    EdgesRoundTrip(cfg, tm, words, time);
    if |closed| != |sch| {
      var t4 := ClosedSamples(tm, words, time);
      var ends := [Frame(t4, true), Frame(t4, false)];
      FeedAppend(cfg, Reset(), EdgeSamples(sch, time), ends);
      ClosingFlash(cfg, t4);
      assert Reports(Decoded(words)) + [] == Reports(Decoded(words));
    } else {
      assert closed == sch;
      assert Samples(closed, time) == EdgeSamples(sch, time);
    }
  }

  /** With a closing flash the camera sees the schedule's edge samples, then the
      flash's end: bright, then dark, at the instant `t4` the flash ends. */
  lemma ClosedSamples(tm: Timing, words: seq<string>, time: int) returns (t4: int)
    requires |ClosedSchedule(tm, words)| != |Schedule(tm, words)|
    ensures Samples(ClosedSchedule(tm, words), time)
            == EdgeSamples(Schedule(tm, words), time) + [Frame(t4, true), Frame(t4, false)]
  {
    var sch := Schedule(tm, words);
    var closed := ClosedSchedule(tm, words);
    var flash := Pulse(tm.timeForZero, true);
    t4 := time + Span(sch) + tm.timeForZero;
    var ends := [Frame(t4, true), Frame(t4, false)];
    assert closed == sch + [flash];
    ScheduleShape(tm, words);
    EdgesAppend(sch, [flash], time);
    SinglePulse(flash, time + Span(sch));
    ConcatAssoc([Frame(time, true)], Edges(sch, time), ends);
    assert Samples(closed, time) == EdgeSamples(closed, time);
  }

  /** The opening, then the body, fed one after another. */
  lemma PartsRoundTrip(cfg: Config, tm: Timing, words: seq<string>, time: int)
    requires Separated(cfg, tm) && MsbFirst(cfg) && SevenDigitWords(words)
    requires time > 0
    ensures Feed(cfg, Reset(), OpeningFrames(tm, time) + BodyFrames(tm, words, time + tm.timeForStartOrEndOfTransmission))
            == Step(Reset(), Reports(Decoded(words)))
  {
    var t1 := time + tm.timeForStartOrEndOfTransmission;
    FeedAppend(cfg, Reset(), OpeningFrames(tm, time), BodyFrames(tm, words, t1));
    Opening(cfg, tm, time);
    Body(cfg, tm, words, t1);
  }

  /** The first sample only starts the clock, and the start marker's edges
      begin the message. */
  lemma Opening(cfg: Config, tm: Timing, time: int)
    requires Separated(cfg, tm) && time > 0
    ensures var t1 := time + tm.timeForStartOrEndOfTransmission;
            Feed(cfg, Reset(), OpeningFrames(tm, time))
            == Step(State(false, t1, [], MessageState([], true, "")), [Status(BeginningOfMessage)])
  {
    var mark := tm.timeForStartOrEndOfTransmission;
    var t1 := time + mark;
    assert OpeningFrames(tm, time) == [Frame(time, true)] + [Frame(t1, true), Frame(t1, false)];
    var s0 := Reset().(lastTimeStamp := time, lastSampleReadWasBright := true);
    Classification(cfg, tm, '1');
    assert Feed(cfg, Reset(), [Frame(time, true)]) == Step(s0, []) by {
      FirstSampleAfterReset(cfg, time, true);
      assert [Frame(time, true)][1..] == [];
    }
    assert Feed(cfg, s0, [Frame(t1, true), Frame(t1, false)])
           == Step(State(false, t1, [], MessageState([], true, "")), [Status(BeginningOfMessage)]) by {
      MarkerPulse(cfg, s0, mark);
      assert s0.assembly.(inMessage := true) == MessageState([], true, "");
    }
    FeedAppend(cfg, Reset(), [Frame(time, true)], [Frame(t1, true), Frame(t1, false)]);
  }

  /** In a started message the digits' edges report the text character by
      character, and the end marker's edges report the message and reset. */
  lemma Body(cfg: Config, tm: Timing, words: seq<string>, t1: int)
    requires Separated(cfg, tm) && MsbFirst(cfg) && SevenDigitWords(words)
    requires t1 > 0
    ensures Feed(cfg, State(false, t1, [], MessageState([], true, "")), BodyFrames(tm, words, t1))
            == Step(Reset(), Progress("", Decoded(words)) + [CaptureResult(Decoded(words))])
  {
    var mark := tm.timeForStartOrEndOfTransmission;
    var ds := DigitDurations(tm, Concat(words));
    var lastLight := |ds| % 2 == 1;
    var t2 := t1 + Span(Alternate(ds, false));
    var e1 := Edges(Alternate(ds, false), t1);
    var e2 := [Frame(t2 + mark, lastLight), Frame(t2 + mark, !lastLight)];
    FeedSplit(cfg, State(false, t1, [], MessageState([], true, "")), e1, e2, BodyFrames(tm, words, t1));
    DataSegment(cfg, tm, words, t1);
    EndMarker(cfg, tm, lastLight, t2, Decoded(words));
  }

  /** The end marker's edges report the message and reset the decoder. */
  lemma EndMarker(cfg: Config, tm: Timing, light: bool, t2: int, text: string)
    requires Separated(cfg, tm) && t2 > 0
    ensures var t3 := t2 + tm.timeForStartOrEndOfTransmission;
            Feed(cfg, State(light, t2, [], MessageState([], true, text)), [Frame(t3, light), Frame(t3, !light)])
            == Step(Reset(), [CaptureResult(text)])
  {
    Classification(cfg, tm, '1');
    MarkerPulse(cfg, State(light, t2, [], MessageState([], true, text)), tm.timeForStartOrEndOfTransmission);
  }

  /** Under separated thresholds every digit pulse is a positive non-marker run. */
  lemma DigitRuns(cfg: Config, tm: Timing, digits: string)
    requires Separated(cfg, tm)
    ensures var ds := DigitDurations(tm, digits);
            forall i :: 0 <= i < |ds| ==> ds[i] > 0 && !IsMarker(cfg, ds[i])
  {
    var ds := DigitDurations(tm, digits);
    forall i | 0 <= i < |ds|
      ensures ds[i] > 0 && !IsMarker(cfg, ds[i])
    {
      Classification(cfg, tm, digits[i]);
    }
  }

  // ---------------------------------------------------------------------------
  // A dark lead-in

  /** A receiver listening before the transmission sees dark samples first.
      Queued after `reset()`, such a lead-in is measured from its own first
      sample to its last once the start marker's first, bright sample arrives. */
  lemma LeadInRun(cfg: Config, lead: seq<Frame>, time: int)
    requires |lead| >= 1
    requires forall i :: 0 <= i < |lead| ==> !lead[i].bright && lead[i].time != 0
    ensures Feed(cfg, Reset(), lead + [Frame(time, true)])
            == EndRun(cfg, Reset().(lastTimeStamp := time), lead[|lead| - 1].time - lead[0].time, true)
  {
    var queued := Reset().(capturedFrames := lead);
    assert Reset().capturedFrames + lead == lead;
    FeedSame(cfg, Reset(), lead);
    DarkFirstRunMeasured(cfg, lead, time);
    FeedAppend(cfg, Reset(), lead, [Frame(time, true)]);
    var r := AddFrame(cfg, queued, time, true);
    assert [Frame(time, true)][1..] == [];
    assert Feed(cfg, queued, [Frame(time, true)]) == Step(r.state, r.events + []);
    assert [] + (r.events + []) == r.events;
  }

  /** A dark lead-in longer than the marker time less the margin is taken for a
      start marker: the real start marker then ends that empty message with an
      empty `CAPTURE_RESULT`, and the decoder is reset before the first digit. */
  lemma LongLeadIn(cfg: Config, tm: Timing, lead: seq<Frame>, time: int)
    requires Separated(cfg, tm) && time > 0
    requires |lead| >= 1
    requires forall i :: 0 <= i < |lead| ==> !lead[i].bright && lead[i].time != 0
    requires IsMarker(cfg, lead[|lead| - 1].time - lead[0].time)
    ensures Feed(cfg, Reset(), lead + OpeningFrames(tm, time))
            == Step(Reset(), [Status(BeginningOfMessage), CaptureResult("")])
  {
    var mark := tm.timeForStartOrEndOfTransmission;
    var t1 := time + mark;
    var start := lead + [Frame(time, true)];
    var edges := [Frame(t1, true), Frame(t1, false)];
    assert lead + OpeningFrames(tm, time) == start + edges;
    LeadInRun(cfg, lead, time);
    var s1 := State(true, time, [], MessageState([], true, ""));
    assert Feed(cfg, Reset(), start) == Step(s1, [Status(BeginningOfMessage)]);
    Classification(cfg, tm, '1');
    MarkerPulse(cfg, s1, mark);
    FeedAppend(cfg, Reset(), start, edges);
  }

  /** A shorter dark lead-in of positive length is taken for a bit: the message
      the start marker begins already holds that bit, so every later group of
      seven is out of step by one. */
  lemma ShortLeadIn(cfg: Config, tm: Timing, lead: seq<Frame>, len: int, time: int, frames: seq<Frame>)
    requires Separated(cfg, tm) && time > 0
    requires |lead| >= 1
    requires forall i :: 0 <= i < |lead| ==> !lead[i].bright && lead[i].time != 0
    requires len == lead[|lead| - 1].time - lead[0].time && 0 < len && !IsMarker(cfg, len)
    requires frames == lead + OpeningFrames(tm, time)
    ensures Feed(cfg, Reset(), frames)
            == Step(State(false, time + tm.timeForStartOrEndOfTransmission, [], MessageState([BitOf(cfg, len)], true, "")),
                    [Status(BeginningOfMessage)])
  {
    var t1 := time + tm.timeForStartOrEndOfTransmission;
    var s1 := State(true, time, [], MessageState([BitOf(cfg, len)], false, ""));
    OpeningAfter(tm, lead, time);
    ShortLeadInBit(cfg, lead, len, time);
    StartAfterBit(cfg, tm, s1);
    FeedSplit(cfg, Reset(), lead + [Frame(time, true)], [Frame(t1, true), Frame(t1, false)], frames);
  }

  /** Samples before the opening split off with its first sample. */
  lemma OpeningAfter(tm: Timing, lead: seq<Frame>, time: int)
    ensures var t1 := time + tm.timeForStartOrEndOfTransmission;
            lead + OpeningFrames(tm, time) == (lead + [Frame(time, true)]) + [Frame(t1, true), Frame(t1, false)]
  {
  }

  /** A dark lead-in shorter than a marker, ended by the first bright sample,
      leaves its bit in an idle message. */
  lemma ShortLeadInBit(cfg: Config, lead: seq<Frame>, len: int, time: int)
    requires |lead| >= 1
    requires forall i :: 0 <= i < |lead| ==> !lead[i].bright && lead[i].time != 0
    requires len == lead[|lead| - 1].time - lead[0].time && 0 < len && !IsMarker(cfg, len)
    ensures Feed(cfg, Reset(), lead + [Frame(time, true)])
            == Step(State(true, time, [], MessageState([BitOf(cfg, len)], false, "")), [])
  {
    LeadInRun(cfg, lead, time);
    LeadInBit(cfg, len, time);
  }

  /** A lead-in run that is not a marker adds its bit to an idle message. */
  lemma LeadInBit(cfg: Config, len: int, time: int)
    requires 0 < len && !IsMarker(cfg, len)
    ensures EndRun(cfg, Reset().(lastTimeStamp := time), len, true)
            == Step(State(true, time, [], MessageState([BitOf(cfg, len)], false, "")), [])
  {
  }

  /** The start marker's edges begin a message that keeps the bit before it. */
  lemma StartAfterBit(cfg: Config, tm: Timing, s1: State)
    requires Separated(cfg, tm) && s1.lastTimeStamp > 0 && s1.lastSampleReadWasBright
    requires s1.capturedFrames == [] && !s1.assembly.inMessage
    ensures var t1 := s1.lastTimeStamp + tm.timeForStartOrEndOfTransmission;
            Feed(cfg, s1, [Frame(t1, true), Frame(t1, false)])
            == Step(State(false, t1, [], s1.assembly.(inMessage := true)), [Status(BeginningOfMessage)])
  {
    Classification(cfg, tm, '1');
    MarkerPulse(cfg, s1, tm.timeForStartOrEndOfTransmission);
  }

  // ---------------------------------------------------------------------------
  // The "aZ" example

  /** The example's words stand for "aZ": 1100001 is 97 and 1011010 is 90. */
  lemma AZDecoded()
    ensures SevenDigitWords(AZ) && Decoded(AZ) == "aZ"
  {
    assert MsbValue(Bits(AZ[0])) == 97 by {
      Pow2Seven();
      SpelledWord(97, 7);
      SpellA();
    }
    assert MsbValue(Bits(AZ[1])) == 90 by {
      Pow2Seven();
      SpelledWord(90, 7);
      SpellZ();
    }
    assert AZ[1..] == [AZ[1]];
    assert Decoded(AZ) == [CharOf(97)] + Decoded([AZ[1]]);
  }

  /** The word `ToBinary` spells for a code that fits its width reads back as
      that code. */
  lemma SpelledWord(c: nat, width: nat)
    requires c < Pow2(width)
    ensures MsbValue(Bits(ToBinary(c, width))) == c
  {
    ToBinaryValue(c, width);
    ModUnique(c, Pow2(width), 0, c);
  }

  /** The first word of "aZ" spells 'a'. */
  lemma SpellA()
    ensures ToBinary(97, 7) == AZ[0]
  {
  }

  /** The second word of "aZ" spells 'Z'. */
  lemma SpellZ()
    ensures ToBinary(90, 7) == AZ[1]
  {
  }

  /** The "Received:" reports for "aZ": first "a", then "aZ". */
  lemma AZProgress()
    ensures Progress("", "aZ") == [Status(ReceivedPrefix + "a"), Status(ReceivedPrefix + "aZ")]
  {
    ProgressCons("", 'a', "Z");
    ProgressCons("a", 'Z', "");
    assert "aZ" == ['a'] + "Z" && "Z" == ['Z'] + "";
    assert "" + ['a'] == "a" && "a" + ['Z'] == "aZ";
    assert Progress("aZ", "") == [];
  }

  /** The sixteen run lengths of the "aZ" schedule, handed to `addBit` from the
      reset state, start a message, report "a" and then "aZ", and end the message
      with "aZ", leaving the decoder reset. */
  lemma AZRuns(cfg: Config, tm: Timing)
    requires Separated(cfg, tm) && MsbFirst(cfg)
    ensures |Durations(tm, AZ)| == 16
    ensures FeedRuns(cfg, Reset().assembly, Durations(tm, AZ))
            == Trace(Reset().assembly,
                     [Status(BeginningOfMessage), Status(ReceivedPrefix + "a"), Status(ReceivedPrefix + "aZ"),
                      CaptureResult("aZ")])
  {
    AZDecoded();
    RunsRoundTrip(cfg, tm, AZ);
    assert Concat(AZ) == "11000011011010";
    AZProgress();
  }

  /** As a camera sees it, the "aZ" schedule never ends: its end marker is dark
      and nothing lights up after it.  A reset decoder reports the beginning,
      "a" and "aZ", and is left inside the message with "aZ" gathered; no
      `CAPTURE_RESULT` is posted. */
  lemma AZNeverEnds(cfg: Config, tm: Timing, time: int)
    requires Separated(cfg, tm) && MsbFirst(cfg) && time > 0
    ensures var r := Feed(cfg, Reset(), Samples(Schedule(tm, AZ), time));
            && r.events == [Status(BeginningOfMessage), Status(ReceivedPrefix + "a"), Status(ReceivedPrefix + "aZ")]
            && r.state.assembly == MessageState([], true, "aZ")
  {
    AZDecoded();
    EvenWordsNeverEnd(cfg, tm, AZ, time);
    AZProgress();
  }

  /** With the closing flash, the "aZ" message comes back in one capture result. */
  lemma AZClosed(cfg: Config, tm: Timing, time: int)
    requires Separated(cfg, tm) && MsbFirst(cfg) && time > 0
    ensures Feed(cfg, Reset(), Samples(ClosedSchedule(tm, AZ), time)).events
            == [Status(BeginningOfMessage), Status(ReceivedPrefix + "a"), Status(ReceivedPrefix + "aZ"),
                CaptureResult("aZ")]
  {
    AZDecoded();
    ClosedRoundTrip(cfg, tm, AZ, time);
    AZProgress();
  }
}

=== FILE: signal.dfy ===
/** The vocabulary both ends of the light link share: the pulse lengths, a held
 level, and a brightness sample.  Time is counted in integer ticks. */
module Signal {

  /** The three pulse lengths `FlashControl` uses, in ticks. */
  datatype Timing = Timing(timeForZero: int, timeForOne: int, timeForStartOrEndOfTransmission: int)

  /** `FlashControl`'s constants, 0.2 s, 0.4 s and 1 s, in milliseconds. */
  const FlashTiming: Timing := Timing(200, 400, 1000)

  /** One held level of the torch: how long, and whether it is on. */
  datatype Pulse = Pulse(duration: int, light: bool)

  /** One brightness sample: when it was taken and whether it was bright. */
  datatype Frame = Frame(time: int, bright: bool)

  // ---------------------------------------------------------------------------
  // An ideal observer of a pulse train

  /** The samples taken at the end of each pulse and at the start of the next,
      the first pulse beginning at `time`. */
  function Edges(pulses: seq<Pulse>, time: int): seq<Frame>
    decreases |pulses|
  {
    if |pulses| == 0 then []
    else
      var p := pulses[0];
      [Frame(time + p.duration, p.light), Frame(time + p.duration, !p.light)]
        + Edges(pulses[1..], time + p.duration)
  }

  /** The samples of a train begun at `time` as seen when the level after the
      train is the opposite of its last pulse: the first pulse's start, then
      the edges. */
  function EdgeSamples(pulses: seq<Pulse>, time: int): seq<Frame>
  {
    if |pulses| == 0 then [] else [Frame(time, pulses[0].light)] + Edges(pulses, time)
  }

  /** What a camera watching the torch samples of a train begun at `time`.  The
      torch is off once the train is over, so after a light last pulse the
      level falls, but after a dark last pulse nothing changes: the train's
      last edge sample, a bright one, is never taken. */
  function Samples(pulses: seq<Pulse>, time: int): (frames: seq<Frame>)
  {
    var all := EdgeSamples(pulses, time);
    if |pulses| > 0 && !pulses[|pulses| - 1].light then all[..|all| - 1] else all
  }

  /** Whatever level a train ends on, the last sample a camera takes of it is
      dark and taken when the train ends; after a light last pulse the sample
      before it is bright, so the fall is seen. */
  lemma SamplesEndDark(pulses: seq<Pulse>, time: int)
    requires |pulses| > 0
    ensures var f := Samples(pulses, time);
            var n := |pulses| - 1;
            var t := time + Span(pulses[..n]) + pulses[n].duration;
            && |f| >= 2
            && f[|f| - 1] == Frame(t, false)
            && (pulses[n].light ==> f[|f| - 2] == Frame(t, true))
  {
    var n := |pulses| - 1;
    assert pulses == pulses[..n] + [pulses[n]];
    EdgesAppend(pulses[..n], [pulses[n]], time);
    SinglePulse(pulses[n], time + Span(pulses[..n]));
  }

  /** The total length of a sequence of pulses. */
  function Span(pulses: seq<Pulse>): int
    decreases |pulses|
  {
    if |pulses| == 0 then 0 else pulses[0].duration + Span(pulses[1..])
  }

  /** The two samples around the end of a pulse begun at `time`. */
  function Edge(p: Pulse, time: int): seq<Frame>
  {
    [Frame(time + p.duration, p.light), Frame(time + p.duration, !p.light)]
  }

  /** Sampling a train is sampling its first pulse, then the rest from where it ends. */
  lemma EdgesHead(pulses: seq<Pulse>, time: int)
    requires |pulses| > 0
    ensures Edges(pulses, time) == Edge(pulses[0], time) + Edges(pulses[1..], time + pulses[0].duration)
  {
  }

  /** The head and tail of a concatenation whose left part is not empty. */
  lemma HeadTail<T>(a: seq<T>, b: seq<T>)
    requires |a| > 0
    ensures (a + b)[0] == a[0] && (a + b)[1..] == a[1..] + b
  {
  }

  /** Sampling splits where the pulses do. */
  lemma {:induction false} EdgesAppend(a: seq<Pulse>, b: seq<Pulse>, time: int)
    ensures Edges(a + b, time) == Edges(a, time) + Edges(b, time + Span(a))
    decreases |a|
  {
    if |a| == 0 {
      assert a + b == b;
    } else {
      var t := time + a[0].duration;
      EdgesHead(a, time);
      EdgesHead(a + b, time);
      HeadTail(a, b);
      EdgesAppend(a[1..], b, t);
      ConcatAssoc(Edge(a[0], time), Edges(a[1..], t), Edges(b, t + Span(a[1..])));
    }
  }

  /** Concatenation is associative. */
  lemma ConcatAssoc<T>(a: seq<T>, b: seq<T>, c: seq<T>)
    ensures a + (b + c) == (a + b) + c
  {
  }

  /** A train between two pulses of length `mark`, sampled from `time`: the
      start, the first pulse's edges, the train's edges, the last pulse's edges. */
  lemma Framed(mark: int, first: bool, data: seq<Pulse>, last: bool, time: int)
    ensures var t1 := time + mark;
            var t3 := t1 + Span(data) + mark;
            EdgeSamples([Pulse(mark, first)] + (data + [Pulse(mark, last)]), time)
            == [Frame(time, first), Frame(t1, first), Frame(t1, !first)]
               + (Edges(data, t1) + [Frame(t3, last), Frame(t3, !last)])
  {
    var t1 := time + mark;
    OpenThen(Pulse(mark, first), data + [Pulse(mark, last)], time);
    ThenClose(data, Pulse(mark, last), t1);
  }

  /** A train that opens with pulse `p`, sampled from `time`: the start, `p`'s
      edges, then the rest's edges. */
  lemma OpenThen(p: Pulse, rest: seq<Pulse>, time: int)
    ensures var t1 := time + p.duration;
            EdgeSamples([p] + rest, time)
            == [Frame(time, p.light), Frame(t1, p.light), Frame(t1, !p.light)] + Edges(rest, t1)
  {
    var t1 := time + p.duration;
    assert Edges([p] + rest, time) == [Frame(t1, p.light), Frame(t1, !p.light)] + Edges(rest, t1) by {
      HeadTail([p], rest);
      EdgesHead([p] + rest, time);
    }
    Regroup(Frame(time, p.light), Frame(t1, p.light), Frame(t1, !p.light), Edges(rest, t1));
  }

  /** A train that closes with pulse `p`, sampled from `time`: the train's edges,
      then `p`'s. */
  lemma ThenClose(data: seq<Pulse>, p: Pulse, time: int)
    ensures var t := time + Span(data) + p.duration;
            Edges(data + [p], time) == Edges(data, time) + [Frame(t, p.light), Frame(t, !p.light)]
  {
    SinglePulse(p, time + Span(data));
    EdgesAppend(data, [p], time);
  }

  /** A single pulse: its edges and its length. */
  lemma SinglePulse(p: Pulse, time: int)
    ensures Edges([p], time) == [Frame(time + p.duration, p.light), Frame(time + p.duration, !p.light)]
    ensures Span([p]) == p.duration
  {
    assert [p][1..] == [];
  }

  /** A one-element prefix then a two-element prefix is a three-element prefix. */
  lemma Regroup<T>(a: T, b: T, c: T, rest: seq<T>)
    ensures [a] + ([b, c] + rest) == [a, b, c] + rest
  {
  }

  /** Pulses of positive lengths last at least one tick each. */
  lemma {:induction false} SpanPositive(pulses: seq<Pulse>)
    requires forall i :: 0 <= i < |pulses| ==> pulses[i].duration > 0
    ensures Span(pulses) >= |pulses|
    decreases |pulses|
  {
    if |pulses| > 0 {
      SpanPositive(pulses[1..]);
    }
  }
}

=== FILE: transmitter.dfy ===
/** The sending half of `FlashControl`: a message, given as one '0'/'1' digit
 string per character, becomes a timed sequence of light and dark pulses.

 The torch and the sleeps are not modelled; `sendOneBit` appends the pulse it
 would hold to `emitted`.  A pulse is light when the parity flag
 `bitSentAsLight` is false (the torch is switched on), dark otherwise, and the
 flag flips after every pulse.  Durations are integer ticks.
 */
module Transmitter {
  import opened Binary
  import opened Signal

  /** What a `FlashControl` keeps for sending: whether a back camera was found,
      the parity flag, and the pulses held so far. */
  datatype Sender = Sender(hasCamera: bool, bitSentAsLight: bool, emitted: seq<Pulse>)

  /** `initializeSendingMessage`: whatever the parity flag was, the next pulse
      held is light; nothing is held by it. */
  function InitializeSendingMessage(s: Sender): (r: Sender)
    ensures !r.bitSentAsLight
    ensures r.hasCamera == s.hasCamera && r.emitted == s.emitted
  {
    s.(bitSentAsLight := false)
  }

  /** `sendOneBit`: hold the current level for `timeToSend` and flip the parity;
      without a camera, return at once. */
  function SendOneBit(s: Sender, timeToSend: int): (r: Sender)
    ensures r.hasCamera == s.hasCamera
    ensures !s.hasCamera ==> r == s
    ensures s.hasCamera ==>
              && r.emitted == s.emitted + [Pulse(timeToSend, !s.bitSentAsLight)]
              && r.bitSentAsLight != s.bitSentAsLight
  {
    if !s.hasCamera then s
    else s.(emitted := s.emitted + [Pulse(timeToSend, !s.bitSentAsLight)],
            bitSentAsLight := !s.bitSentAsLight)
  }

  /** The pulse length for one digit: '1' is a one, anything else a zero. */
  function DigitDuration(tm: Timing, digit: char): int
  {
    if digit == '1' then tm.timeForOne else tm.timeForZero
  }

  /** The inner loop of `sendAMessage`: one pulse per character of a word. */
  function SendDigits(tm: Timing, s: Sender, word: string): Sender
    decreases |word|
  {
    if |word| == 0 then s
    else SendDigits(tm, SendOneBit(s, DigitDuration(tm, word[0])), word[1..])
  }

  /** The outer loop of `sendAMessage`: the words in order. */
  function SendWords(tm: Timing, s: Sender, message: seq<string>): Sender
    decreases |message|
  {
    if |message| == 0 then s
    else SendWords(tm, SendDigits(tm, s, message[0]), message[1..])
  }

  /** `sendAMessage`: reset the parity, send the start marker, every digit of
      every word, and the end marker.  It holds exactly the schedule of the
      message, whatever the parity flag was before, and leaves the flag flipped
      once per pulse from false.  Without a camera nothing is held. */
  function SendAMessage(tm: Timing, s: Sender, message: seq<string>): (r: Sender)
    ensures s.hasCamera ==>
              r == s.(emitted := s.emitted + Schedule(tm, message),
                      bitSentAsLight := |Schedule(tm, message)| % 2 == 1)
    ensures !s.hasCamera ==> r == s.(bitSentAsLight := false)
  {
    var m := tm.timeForStartOrEndOfTransmission;
    var s1 := SendOneBit(InitializeSendingMessage(s), m);
    var s2 := SendWords(tm, s1, message);
    if s.hasCamera then
      SendWordsEmits(tm, s1, message);
      ScheduleSplit(tm, message);
      AlternateOne(m, true);
      AlternateOne(m, |Concat(message)| % 2 == 1);
      SendOneBit(s2, m)
    else
      SendWithoutCamera(tm, s1, message);
      SendOneBit(s2, m)
  }

  // ---------------------------------------------------------------------------
  // The schedule, stated without the sender's state

  /** The pulse lengths for a string of digits. */
  function DigitDurations(tm: Timing, digits: string): (ds: seq<int>)
    ensures |ds| == |digits|
    ensures forall i :: 0 <= i < |digits| ==> ds[i] == DigitDuration(tm, digits[i])
  {
    seq(|digits|, i requires 0 <= i < |digits| => DigitDuration(tm, digits[i]))
  }

  /** The pulse lengths of a whole message: start marker, one per digit, end marker. */
  function Durations(tm: Timing, message: seq<string>): seq<int>
  {
    [tm.timeForStartOrEndOfTransmission]
      + DigitDurations(tm, Concat(message))
      + [tm.timeForStartOrEndOfTransmission]
  }

  /** Pulses of the given lengths whose levels alternate, the first one `light`. */
  function Alternate(durations: seq<int>, light: bool): (pulses: seq<Pulse>)
    ensures |pulses| == |durations|
  {
    seq(|durations|, i requires 0 <= i < |durations| => Pulse(durations[i], light == (i % 2 == 0)))
  }

  /** The pulse schedule of a message: its durations, alternating, light first. */
  function Schedule(tm: Timing, message: seq<string>): seq<Pulse>
  {
    Alternate(Durations(tm, message), true)
  }

  /** Alternating pulses split where their lengths do; the second part starts on
      the level after the first part's last pulse. */
  lemma AlternateAppend(a: seq<int>, b: seq<int>, light: bool)
    ensures Alternate(a + b, light) == Alternate(a, light) + Alternate(b, light != (|a| % 2 == 1))
  {
    var l := Alternate(a + b, light);
    var r := Alternate(a, light) + Alternate(b, light != (|a| % 2 == 1));
    forall i | 0 <= i < |l|
      ensures l[i] == r[i]
    {
      if i >= |a| {
        assert (i % 2 == 0) <==> (((i - |a|) % 2 == 0) != (|a| % 2 == 1));
      }
    }
  }

  /** The first of alternating pulses, then the rest starting on the other level. */
  lemma AlternateCons(d: int, rest: seq<int>, light: bool)
    ensures Alternate([d] + rest, light) == [Pulse(d, light)] + Alternate(rest, !light)
  {
    AlternateAppend([d], rest, light);
  }

  /** Sampled exactly, alternating pulses show the first pulse's two edges, then
      the rest's; their span is the first length plus the rest's span. */
  lemma EdgesCons(ds: seq<int>, light: bool, time: int)
    requires |ds| > 0
    ensures Edges(Alternate(ds, light), time)
            == [Frame(time + ds[0], light), Frame(time + ds[0], !light)] + Edges(Alternate(ds[1..], !light), time + ds[0])
    ensures Span(Alternate(ds, light)) == ds[0] + Span(Alternate(ds[1..], !light))
  {
    var pulses := Alternate(ds, light);
    assert ds == [ds[0]] + ds[1..];
    AlternateCons(ds[0], ds[1..], light);
    assert pulses[0] == Pulse(ds[0], light);
    assert pulses[1..] == Alternate(ds[1..], !light);
  }

  /** Dropping the first of `n` alternating pulses flips which level the last one has. */
  lemma ParityStep(light: bool, n: nat)
    requires n >= 1
    ensures (!light != ((n - 1) % 2 == 1)) == (light != (n % 2 == 1))
  {
  }

  /** The same parity step, for the tail of a sequence. */
  lemma ParityTail<T>(light: bool, ds: seq<T>)
    requires |ds| > 0
    ensures (!light != (|ds[1..]| % 2 == 1)) == (light != (|ds| % 2 == 1))
  {
    ParityStep(light, |ds|);
  }

  /** The level a train of alternating pulses begun on `light` leaves behind:
      flipped once per pulse. */
  function LevelAfter(light: bool, ds: seq<int>): bool
    decreases |ds|
  {
    if |ds| == 0 then light else LevelAfter(!light, ds[1..])
  }

  /** The level left behind is the starting level, flipped when the number of
      pulses is odd. */
  lemma {:induction false} LevelAfterParity(light: bool, ds: seq<int>)
    ensures LevelAfter(light, ds) == (light != (|ds| % 2 == 1))
    decreases |ds|
  {
    if |ds| > 0 {
      LevelAfterParity(!light, ds[1..]);
      ParityTail(light, ds);
    }
  }

  /** The inner loop emits one alternating pulse per digit, starting on the
      level the parity flag selects, and flips the flag once per digit. */
  lemma {:induction false} SendDigitsEmits(tm: Timing, s: Sender, word: string)
    requires s.hasCamera
    ensures SendDigits(tm, s, word)
            == s.(emitted := s.emitted + Alternate(DigitDurations(tm, word), !s.bitSentAsLight),
                  bitSentAsLight := s.bitSentAsLight != (|word| % 2 == 1))
    decreases |word|
  {
    if |word| == 0 {
      assert s.emitted + [] == s.emitted;
    } else {
      var l := !s.bitSentAsLight;
      var d := DigitDuration(tm, word[0]);
      var rest := DigitDurations(tm, word[1..]);
      var s1 := s.(emitted := s.emitted + [Pulse(d, l)], bitSentAsLight := l);
      assert SendDigits(tm, s, word) == SendDigits(tm, s1, word[1..]) by {
        assert SendOneBit(s, d) == s1;
      }
      assert SendDigits(tm, s1, word[1..])
             == s1.(emitted := s1.emitted + Alternate(rest, !l), bitSentAsLight := l != (|word[1..]| % 2 == 1)) by {
        SendDigitsEmits(tm, s1, word[1..]);
      }
      assert DigitDurations(tm, word) == [d] + rest;
      AlternateCons(d, rest, l);
      assert s1.emitted + Alternate(rest, !l) == s.emitted + Alternate([d] + rest, l);
      assert |word[1..]| == |word| - 1;
      ParityStep(s.bitSentAsLight, |word|);
    }
  }

  /** Without a camera the loops hold nothing and leave the parity alone. */
  lemma {:induction false} SendWithoutCamera(tm: Timing, s: Sender, message: seq<string>)
    requires !s.hasCamera
    ensures SendWords(tm, s, message) == s
    decreases |message|
  {
    if |message| > 0 {
      SendDigitsWithoutCamera(tm, s, message[0]);
      SendWithoutCamera(tm, s, message[1..]);
    }
  }

  /** Without a camera the inner loop holds nothing either. */
  lemma {:induction false} SendDigitsWithoutCamera(tm: Timing, s: Sender, word: string)
    requires !s.hasCamera
    ensures SendDigits(tm, s, word) == s
    decreases |word|
  {
    if |word| > 0 {
      SendDigitsWithoutCamera(tm, s, word[1..]);
    }
  }

  /** The outer loop emits the alternating pulses of all the digits of all the
      words, in order. */
  lemma {:induction false} SendWordsEmits(tm: Timing, s: Sender, message: seq<string>)
    requires s.hasCamera
    ensures SendWords(tm, s, message)
            == s.(emitted := s.emitted + Alternate(DigitDurations(tm, Concat(message)), !s.bitSentAsLight),
                  bitSentAsLight := s.bitSentAsLight != (|Concat(message)| % 2 == 1))
    decreases |message|
  {
    if |message| == 0 {
      assert s.emitted + [] == s.emitted;
    } else {
      var word := message[0];
      var rest := Concat(message[1..]);
      var a := DigitDurations(tm, word);
      var b := DigitDurations(tm, rest);
      var l := !s.bitSentAsLight;
      SendDigitsEmits(tm, s, word);
      SendWordsEmits(tm, SendDigits(tm, s, word), message[1..]);
      DigitDurationsAppend(tm, word, rest);
      AlternateAppend(a, b, l);
      ConcatAssoc(s.emitted, Alternate(a, l), Alternate(b, l != (|a| % 2 == 1)));
      ParityAppend(s.bitSentAsLight, word, rest);
    }
  }

  /** The pulse lengths of two digit strings, one after the other. */
  lemma DigitDurationsAppend(tm: Timing, a: string, b: string)
    ensures DigitDurations(tm, a + b) == DigitDurations(tm, a) + DigitDurations(tm, b)
  {
  }

  /** Flipping once per character of `a`, then once per character of `b`, is
      flipping once per character of `a + b`. */
  lemma ParityAppend<T>(light: bool, a: seq<T>, b: seq<T>)
    ensures ((light != (|a| % 2 == 1)) != (|b| % 2 == 1)) == (light != (|a + b| % 2 == 1))
  {
    assert |a + b| == |a| + |b|;
  }

  /** A schedule is the start marker's pulse, the digits' pulses starting dark,
      and the end marker's pulse. */
  lemma ScheduleSplit(tm: Timing, message: seq<string>)
    ensures var mark := tm.timeForStartOrEndOfTransmission;
            var ds := DigitDurations(tm, Concat(message));
            Schedule(tm, message)
            == Alternate([mark], true) + (Alternate(ds, false) + Alternate([mark], |ds| % 2 == 1))
  {
    var mark := tm.timeForStartOrEndOfTransmission;
    var ds := DigitDurations(tm, Concat(message));
    AlternateAppend([mark], ds + [mark], true);
    AlternateAppend(ds, [mark], false);
    assert Durations(tm, message) == [mark] + (ds + [mark]);
  }

  /** A single length is a single pulse. */
  lemma AlternateOne(d: int, light: bool)
    ensures Alternate([d], light) == [Pulse(d, light)]
  {
  }

  /** Schedule shape: the start marker, then one pulse per digit of the words in
      order, then the end marker -- two more pulses than there are digits. */
  lemma ScheduleShape(tm: Timing, message: seq<string>)
    ensures |Schedule(tm, message)| == |Concat(message)| + 2
    ensures Schedule(tm, message)[0].duration == tm.timeForStartOrEndOfTransmission
    ensures Schedule(tm, message)[|Concat(message)| + 1].duration == tm.timeForStartOrEndOfTransmission
    ensures forall k :: 0 <= k < |Concat(message)| ==>
              Schedule(tm, message)[k + 1].duration == DigitDuration(tm, Concat(message)[k])
  {
  }

  /** Pulse durations: every pulse lasts one of the three times; where the zero and
      one times differ, a digit's pulse lasts the one time exactly when the digit
      is '1'. */
  lemma PulseDurations(tm: Timing, message: seq<string>)
    ensures forall p | p in Schedule(tm, message) ::
              p.duration in {tm.timeForZero, tm.timeForOne, tm.timeForStartOrEndOfTransmission}
    ensures tm.timeForZero != tm.timeForOne ==>
              forall k :: 0 <= k < |Concat(message)| ==>
                (Schedule(tm, message)[k + 1].duration == tm.timeForOne <==> Concat(message)[k] == '1')
  {
    var sch := Schedule(tm, message);
    var ds := Durations(tm, message);
    DurationKinds(tm, message);
    forall p | p in sch
      ensures p.duration in {tm.timeForZero, tm.timeForOne, tm.timeForStartOrEndOfTransmission}
    {
      var i :| 0 <= i < |sch| && sch[i] == p;
      assert p.duration == ds[i];
    }
    ScheduleShape(tm, message);
  }

  /** Every length in a message's schedule is one of the three times. */
  lemma DurationKinds(tm: Timing, message: seq<string>)
    ensures forall i :: 0 <= i < |Durations(tm, message)| ==>
              Durations(tm, message)[i] in {tm.timeForZero, tm.timeForOne, tm.timeForStartOrEndOfTransmission}
  {
    var ds := Durations(tm, message);
    var digits := Concat(message);
    forall i | 0 <= i < |ds|
      ensures ds[i] in {tm.timeForZero, tm.timeForOne, tm.timeForStartOrEndOfTransmission}
    {
      if 0 < i < |ds| - 1 {
        assert ds[i] == DigitDuration(tm, digits[i - 1]);
      }
    }
  }

  /** Parity: the first pulse is light and every pulse has the other level from
      the one before it, so the start marker is light, and the end marker is
      dark exactly when the message has an even number of digits. */
  lemma ScheduleAlternates(tm: Timing, message: seq<string>)
    ensures Schedule(tm, message)[0].light
    ensures forall i :: 0 < i < |Schedule(tm, message)| ==>
              Schedule(tm, message)[i].light != Schedule(tm, message)[i - 1].light
    ensures Schedule(tm, message)[|Schedule(tm, message)| - 1].light <==> |Concat(message)| % 2 == 1
  {
  }

  // ---------------------------------------------------------------------------
  // A corrected sender

  /** `sendAMessage` with a closing flash: when the end marker was dark -- the
      parity flag then selects a light next pulse -- one more pulse of the zero
      time is held, so that the torch is seen to come on after the end marker. */
  function SendAMessageClosed(tm: Timing, s: Sender, message: seq<string>): (r: Sender)
    ensures s.hasCamera ==> r.emitted == s.emitted + ClosedSchedule(tm, message)
    ensures !s.hasCamera ==> r.emitted == s.emitted
  {
    var sent := SendAMessage(tm, s, message);
    if sent.bitSentAsLight then sent else SendOneBit(sent, tm.timeForZero)
  }

  /** The pulses `SendAMessageClosed` holds: the schedule, then a closing flash
      of the zero time when the schedule ends dark.  The last pulse is always
      light, and the schedule's own pulses come first, unchanged. */
  function ClosedSchedule(tm: Timing, message: seq<string>): (pulses: seq<Pulse>)
    ensures |pulses| > 0 && pulses[|pulses| - 1].light
    ensures var sch := Schedule(tm, message);
            |sch| <= |pulses| <= |sch| + 1 && pulses[..|sch|] == sch
  {
    var sch := Schedule(tm, message);
    ScheduleAlternates(tm, message);
    if |sch| % 2 == 1 then sch else sch + [Pulse(tm.timeForZero, true)]
  }

  /** The two words of "aZ" as the sender is handed them. */
  const AZ: seq<string> := ["1100001", "1011010"]

  /** The "aZ" example: a light start marker, the fourteen digit pulses with the
      levels alternating, and a dark end marker. */
  lemma AZSchedule(tm: Timing)
    ensures var z, o, m := tm.timeForZero, tm.timeForOne, tm.timeForStartOrEndOfTransmission;
            Schedule(tm, AZ) ==
              [ Pulse(m, true),
                Pulse(o, false), Pulse(o, true), Pulse(z, false), Pulse(z, true),
                Pulse(z, false), Pulse(z, true), Pulse(o, false),
                Pulse(o, true), Pulse(z, false), Pulse(o, true), Pulse(o, false),
                Pulse(z, true), Pulse(o, false), Pulse(z, true),
                Pulse(m, false) ]
  {
    assert Concat(AZ) == "11000011011010";
  }
}
